=== FILE: README.md ===
# Limbo view synchroniser, packet layouts and block palette in Dafny

This project models three pieces of the Limbo server (a lightweight Minecraft
Java Edition server) and proves properties about them.

- **The per-player view synchroniser** (`PlayerInteractManager`). Once per
  tick, `update` compares the entities and chunk positions now in range of
  the player with those it stored on the previous tick. It sends, in order:
  - a spawn and a metadata packet for each arriving entity;
  - a destroy packet for each departed entity;
  - an unload packet for each chunk that left the window;
  - a chunk batch holding the chunks that entered the window.

  It then stores the new range and window. `setPlayer` may be called only
  once. Modules `PlayerView` and `PlayerViewLemmas`.
- **Four packet serialisers**, as exact byte layouts:
  - spawn-entity (`SpawnEntity`);
  - boss bar (`Boss`);
  - tab completion (`TabComplete`);
  - respawn (`Respawn`).

  Each serialiser is paired with a reader of the same layout, and a
  round-trip lemma shows that every field is read back from the place the
  layout gives it. The packets' fields are final in the source; here
  packets are immutable values and serialisers are functions, so
  serialising never changes a packet and always gives the same bytes.
- **The block-state palette resolver** (`getGlobalPaletteIDFromState`, module
  `BlockPalette`). It scans for the first state whose declared properties
  all agree with the tag, then falls back to the default state, then to 0.

The wire primitives (`Wire`) come from helpers this model does not contain:
`DataTypeIO.writeVarInt`, `writeUUID` and `writeString`. They are given the
protocol's definitions:
- VarInt is the 7-bit groups with a continuation bit, written from the
  unsigned 32-bit pattern of a Java int;
- a UUID is two big-endian longs;
- a string is a VarInt byte count followed by the RFC 3629 UTF-8 bytes.

Each primitive has a reader and a round-trip lemma.
`DataOutputStream.writeByte`, `writeShort` and `writeLong` become fixed-width
big-endian writes of the low bits.

Two behaviours that a reader might expect otherwise are modelled as the code has them:
- **The packet id is one byte.** Every serialiser writes the registry id
  with `writeByte`, not as a VarInt. That one byte agrees with the VarInt
  only for ids below 128 (`Wire.PacketIdByteIsVarIntBelow128`,
  `Wire.PacketIdByteDiffersAt128`).
- **Departed entities are destroyed one by one.** Each departed entity gets
  its own destroy packet. The model sends no single batched destroy packet.

Java's integer widths are written out. The view distance in blocks and its
square are 32-bit products. For a view distance of 2897 chunks or more the
square wraps. At exactly 2897 it wraps to a negative bound, so no entity is
ever in range (`PlayerViewLemmas.RangeBoundWrapsAt2897`). The model keeps
this behaviour of the code as it is.

## Model

| member | source | states |
|---|---|---|
| Wire.VarIntRoundTrip | src/main/java/com/loohp/limbo/network/protocol/packets/PacketPlayOutSpawnEntity.java:133 | Every Java int written as a VarInt is read back exactly, whatever bytes follow it |
| Wire.VarIntShape | src/main/java/com/loohp/limbo/network/protocol/packets/PacketPlayOutTabComplete.java:69-72 | In a VarInt, every byte but the last has the continuation bit set, and the last has it clear |
| Wire.SmallVarInt | src/main/java/com/loohp/limbo/network/protocol/packets/PacketPlayOutBoss.java:72 | A value from 0 to 127, such as an action ordinal, is one VarInt byte holding itself |
| Wire.UuidRoundTrip | src/main/java/com/loohp/limbo/network/protocol/packets/PacketPlayOutSpawnEntity.java:134 | The 16 UUID bytes (most significant half first) are read back as the same UUID |
| Wire.LongRoundTrip | src/main/java/com/loohp/limbo/network/protocol/packets/PacketPlayOutRespawn.java:93 | The eight bytes of `writeLong` are read back as the same Java long |
| Wire.BigEndianRoundTrip | src/main/java/com/loohp/limbo/network/protocol/packets/PacketPlayOutSpawnEntity.java:136-138 | Decoding an n-byte big-endian write gives the value modulo 256^n |
| Wire.BigEndianModulo | src/main/java/com/loohp/limbo/network/protocol/packets/PacketPlayOutSpawnEntity.java:143-145 | A fixed-width write depends only on the value modulo 256^n |
| Wire.FixedRoundTrip | src/main/java/com/loohp/limbo/network/protocol/packets/PacketPlayOutSpawnEntity.java:143-145 | A fixed-width write is read back as the value wrapped into the signed range of its width |
| Wire.Utf8RoundTrip | src/main/java/com/loohp/limbo/network/protocol/packets/PacketPlayOutTabComplete.java:75 | UTF-8 decoding of a string's encoding gives back the string |
| Wire.OverlongRejected | src/main/java/com/loohp/limbo/network/protocol/packets/PacketPlayOutTabComplete.java:75 | The UTF-8 reader refuses overlong forms in two, three and four bytes, so a round trip holds only for the shortest encoding |
| Wire.Utf8CharLength | src/main/java/com/loohp/limbo/network/protocol/packets/PacketPlayOutTabComplete.java:75 | A character is written in one byte below U+0080, two below U+0800, three below U+10000 and four above |
| Wire.StringRoundTrip | src/main/java/com/loohp/limbo/network/protocol/packets/PacketPlayOutRespawn.java:92 | A string whose UTF-8 form is shorter than 2^31 bytes is read back whole, and the following bytes are left in place |
| Wire.WriteByte | src/main/java/com/loohp/limbo/network/protocol/packets/PacketPlayOutSpawnEntity.java:132 | `writeByte` writes one byte congruent to its argument modulo 256 |
| Wire.WriteBoolean | src/main/java/com/loohp/limbo/network/protocol/packets/PacketPlayOutRespawn.java:96-98 | A boolean is one byte: 1 exactly when true and 0 exactly when false |
| Wire.DoubleToInt | src/main/java/com/loohp/limbo/network/protocol/packets/PacketPlayOutSpawnEntity.java:139-141 | The `(int)` cast of a floating value truncates toward zero and saturates at the int bounds |
| Wire.PacketIdByteIsVarIntBelow128 | src/main/java/com/loohp/limbo/network/protocol/packets/PacketPlayOutSpawnEntity.java:132 | For ids below 128 the single id byte is the same as the VarInt of the id |
| Wire.PacketIdByteDiffersAt128 | src/main/java/com/loohp/limbo/network/protocol/packets/PacketPlayOutBoss.java:69 | The id 128 is written as the one byte 0x80, which a VarInt reader rejects as unterminated |
| SpawnEntity.FromLocation | src/main/java/com/loohp/limbo/network/protocol/packets/PacketPlayOutSpawnEntity.java:50-52 | The location-only constructor copies ids, position, pitch and yaw, and sets head yaw 0, data 0 and zero velocity |
| SpawnEntity.WithVelocity | src/main/java/com/loohp/limbo/network/protocol/packets/PacketPlayOutSpawnEntity.java:55-57 | The velocity constructor copies the ids, position, pitch, yaw, head yaw and data, and narrows each velocity component to its low 16 bits |
| SpawnEntity.DoubleToShort | src/main/java/com/loohp/limbo/network/protocol/packets/PacketPlayOutSpawnEntity.java:56 | The `(short)` cast of a double velocity component is congruent modulo 2^16 to its `(int)` truncation |
| SpawnEntity.ToInt16 | src/main/java/com/loohp/limbo/network/protocol/packets/PacketPlayOutSpawnEntity.java:56 | The `(short)` cast gives a short congruent to the int modulo 2^16 |
| SpawnEntity.AngleByte | src/main/java/com/loohp/limbo/network/protocol/packets/PacketPlayOutSpawnEntity.java:139-141 | An angle byte is the truncated step `deg * 256 / 360` reduced modulo 256 |
| SpawnEntity.VelocityBytes | src/main/java/com/loohp/limbo/network/protocol/packets/PacketPlayOutSpawnEntity.java:143-145 | For a short v, `v * 8000` fits an int; the two bytes written decode to its low 16 bits; v = 0 writes 0x0000 |
| SpawnEntity.Serialize | src/main/java/com/loohp/limbo/network/protocol/packets/PacketPlayOutSpawnEntity.java:132-145 | The output length is 1 + the entity-id VarInt + 16 + the type VarInt + 24 + 3 + the data VarInt + 6 |
| SpawnEntity.ParseSerialize | src/main/java/com/loohp/limbo/network/protocol/packets/PacketPlayOutSpawnEntity.java:128-148 | A reader of the layout gets back, in order, the id byte, entity id, UUID, type id, three double bit patterns, three wrapped angles, data and three wrapped velocities, and nothing is left over |
| SpawnEntity.AngleExamples | src/main/java/com/loohp/limbo/network/protocol/packets/PacketPlayOutSpawnEntity.java:139-141 | Angles wrap and are never clamped: 180° gives 0x80 (−128), −90° gives 0xC0, 360° gives 0, and 450° is the same byte as 90° |
| SpawnEntity.AngleByteWholeTurn | src/main/java/com/loohp/limbo/network/protocol/packets/PacketPlayOutSpawnEntity.java:139-141 | Below the saturation of the int cast, a non-negative angle and that angle plus 360° write the same byte |
| SpawnEntity.AngleByteNotPeriodicBelowZero | src/main/java/com/loohp/limbo/network/protocol/packets/PacketPlayOutSpawnEntity.java:139-141 | Truncation toward zero breaks that periodicity below zero: −0.5° writes 0, but 359.5° writes 255 |
| Boss.Ordinal | src/main/java/com/loohp/limbo/network/protocol/packets/PacketPlayOutBoss.java:109-116 | Every action's tag is below 6 |
| Boss.OrdinalBijective | src/main/java/com/loohp/limbo/network/protocol/packets/PacketPlayOutBoss.java:72 | Tags 0 to 5 and the six actions correspond one to one, and no other tag names an action |
| Boss.EncodeProperties | src/main/java/com/loohp/limbo/network/protocol/packets/PacketPlayOutBoss.java:42-54 | The flag byte is below 8; bit 0 is set iff darken-screen, bit 1 iff music, and bit 2 iff fog |
| Boss.PropertiesRoundTrip | src/main/java/com/loohp/limbo/network/protocol/packets/PacketPlayOutBoss.java:42-54 | Each flag combination is read back from its byte, and each byte below 8 encodes the flags it carries |
| Boss.PropertiesExample | src/main/java/com/loohp/limbo/network/protocol/packets/PacketPlayOutBoss.java:42-54 | Darken-screen and fog without music give 5 |
| Boss.Header | src/main/java/com/loohp/limbo/network/protocol/packets/PacketPlayOutBoss.java:69-72 | Every packet begins with 18 bytes: the id byte, the 16 UUID bytes, then the action's ordinal as one byte |
| Boss.Serialize | src/main/java/com/loohp/limbo/network/protocol/packets/PacketPlayOutBoss.java:65-107 | Every output starts with the header |
| Boss.ParseSerialize | src/main/java/com/loohp/limbo/network/protocol/packets/PacketPlayOutBoss.java:65-107 | A reader gets back the id byte, UUID and action, then exactly the action's payload and nothing after it (ADD: name, progress, colour, overlay, flags in that order) |
| Boss.PayloadRoundTrip | src/main/java/com/loohp/limbo/network/protocol/packets/PacketPlayOutBoss.java:76-103 | Each action's payload is read back as the fields that action writes, in order |
| Boss.PayloadSizes | src/main/java/com/loohp/limbo/network/protocol/packets/PacketPlayOutBoss.java:76-103 | REMOVE writes only the header; UPDATE_PROGRESS writes 4 bytes; UPDATE_NAME writes only the name; UPDATE_STYLE writes only the two ordinals; UPDATE_PROPERTIES writes only the flag byte; ADD writes the name plus 7 bytes |
| TabComplete.NewMatch | src/main/java/com/loohp/limbo/network/protocol/packets/PacketPlayOutTabComplete.java:92-95 | The one-argument constructor keeps the text and has no tooltip |
| TabComplete.NewMatchWithTooltip | src/main/java/com/loohp/limbo/network/protocol/packets/PacketPlayOutTabComplete.java:97-100 | The two-argument constructor keeps the text and exactly the tooltip it was given, so it has a tooltip iff that one is non-null |
| TabComplete.NullTooltipIsNoTooltip | src/main/java/com/loohp/limbo/network/protocol/packets/PacketPlayOutTabComplete.java:92-100 | Both constructors give the same match when the tooltip is null |
| TabComplete.MatchBytes | src/main/java/com/loohp/limbo/network/protocol/packets/PacketPlayOutTabComplete.java:74-82 | A match is its text string, then a flag byte that is 1 iff a tooltip follows and 0 iff none does; the tooltip bytes come after the flag and only then |
| TabComplete.Serialize | src/main/java/com/loohp/limbo/network/protocol/packets/PacketPlayOutTabComplete.java:64-85 | The output starts with the header, and with no matches it ends right after the count |
| TabComplete.SerializeShape | src/main/java/com/loohp/limbo/network/protocol/packets/PacketPlayOutTabComplete.java:68-72 | After the id byte come the VarInts id, start, length and match count, then the matches |
| TabComplete.MatchesRoundTrip | src/main/java/com/loohp/limbo/network/protocol/packets/PacketPlayOutTabComplete.java:74-82 | The matches written one after another are read back as the same matches in array order |
| TabComplete.ParseSerialize | src/main/java/com/loohp/limbo/network/protocol/packets/PacketPlayOutTabComplete.java:64-85 | A reader gets back the header fields and exactly the number of matches given by the count, in array order, each with its tooltip iff it has one, and nothing is left over |
| Respawn.NewRespawn | src/main/java/com/loohp/limbo/network/protocol/packets/PacketPlayOutRespawn.java:46-54 | The constructor takes the dimension from the world's environment and keeps every other argument |
| Respawn.Tail | src/main/java/com/loohp/limbo/network/protocol/packets/PacketPlayOutRespawn.java:93-98 | The tail is 13 bytes: 8 bytes holding the seed modulo 2^64, then two equal gamemode bytes, then the flags debug, flat and copy-metadata as 0 or 1, in that order |
| Respawn.Serialize | src/main/java/com/loohp/limbo/network/protocol/packets/PacketPlayOutRespawn.java:85-101 | Whatever the world name, the last 13 bytes of the output are the tail |
| Respawn.SerializeShape | src/main/java/com/loohp/limbo/network/protocol/packets/PacketPlayOutRespawn.java:89-92 | After the id byte come the dimension-index VarInt, the world-key string, then the tail |
| Respawn.ParseSerialize | src/main/java/com/loohp/limbo/network/protocol/packets/PacketPlayOutRespawn.java:85-101 | A reader gets back the id byte, the dimension index, the world key, the seed, the gamemode byte in both slots and the three flags, and nothing is left over |
| BlockPalette.Resolve | src/main/java/com/loohp/limbo/world/GeneratedBlockDataMappings.java:57-89 | The first-match definition of the lookup: it fails exactly for an unknown block name, or for a block without properties and with no states |
| BlockPalette.Matches | src/main/java/com/loohp/limbo/world/GeneratedBlockDataMappings.java:77 | A matching state declares only supplied keys, and a state that declares no properties matches any tag |
| BlockPalette.StateId | src/main/java/com/loohp/limbo/world/GeneratedBlockDataMappings.java:78 | The `(int) (long)` cast keeps the id modulo 2^32, and an id in the int range unchanged |
| BlockPalette.FirstIndex | src/main/java/com/loohp/limbo/world/GeneratedBlockDataMappings.java:68-81 | The scan finds the first index whose element satisfies the predicate, with none before it, or reports that no element satisfies it |
| BlockPalette.ResolveByScan | src/main/java/com/loohp/limbo/world/GeneratedBlockDataMappings.java:57-89 | The source's two loops fail exactly for an unknown name, or for a block without properties and with no states; a block without properties gives its first state; the result agrees with the first-match definition |
| BlockPalette.WithoutPropertiesFirstState | src/main/java/com/loohp/limbo/world/GeneratedBlockDataMappings.java:61-64 | A block with no `properties` key resolves to its first state's id, whatever the tag holds |
| BlockPalette.FirstMatchWins | src/main/java/com/loohp/limbo/world/GeneratedBlockDataMappings.java:68-81 | With supplied properties, the first state in order whose declared keys all agree wins |
| BlockPalette.MissingKeyNeverMatches | src/main/java/com/loohp/limbo/world/GeneratedBlockDataMappings.java:77 | A state that declares a key missing from the supplied properties never matches |
| BlockPalette.UndeclaredKeyIgnored | src/main/java/com/loohp/limbo/world/GeneratedBlockDataMappings.java:72-79 | Adding a supplied key that no state declares leaves the result unchanged |
| BlockPalette.DefaultWhenNoMatch | src/main/java/com/loohp/limbo/world/GeneratedBlockDataMappings.java:83-87 | With no properties supplied, or with no matching state, the first state flagged default wins |
| BlockPalette.ZeroWhenNothingApplies | src/main/java/com/loohp/limbo/world/GeneratedBlockDataMappings.java:88 | With no match and no default state, the result is 0 |
| BlockPalette.ResolvedIdIsAStateOrZero | src/main/java/com/loohp/limbo/world/GeneratedBlockDataMappings.java:58-88 | A resolved id is the id of one of the block's states, or 0, and only known names resolve |
| PlayerView.NewManager | src/main/java/com/loohp/limbo/player/PlayerInteractManager.java:44-48 | A new manager has no player, no known entities and an empty window |
| PlayerView.SetPlayer | src/main/java/com/loohp/limbo/player/PlayerInteractManager.java:54-60 | Setting the player succeeds iff none is set yet; it records the player and changes nothing else |
| PlayerViewLemmas.SetPlayerOnce | src/main/java/com/loohp/limbo/player/PlayerInteractManager.java:54-60 | A fresh manager accepts a player, and a second call then fails |
| PlayerView.Update | src/main/java/com/loohp/limbo/player/PlayerInteractManager.java:62-147 | Outside PLAY state nothing is sent and the manager is unchanged; in PLAY state something is always sent; the player never changes |
| PlayerView.ChunkCoordinate | src/main/java/com/loohp/limbo/player/PlayerInteractManager.java:93-94 | `(int) coord >> 4` is the c with 16c ≤ the truncated coordinate < 16c + 16; its size is below 2^27 |
| PlayerView.ChunkAt | src/main/java/com/loohp/limbo/player/PlayerInteractManager.java:101-106 | A window position holds the world's own chunk where there is one, and the empty sentinel iff there is none |
| PlayerView.Window | src/main/java/com/loohp/limbo/player/PlayerInteractManager.java:93-108 | The window holds exactly the positions of the player's world with x in [cx − vd, cx + vd) and z in [cz − vd, cz + vd), each with the chunk value found there |
| PlayerView.ChunkPacket | src/main/java/com/loohp/limbo/player/PlayerInteractManager.java:121-145 | A chunk-data packet names its position and the world's environment and carries the stored chunk value; the sentinel has no light lists; a loaded chunk carries the world's block-light list (empty when there is none) and, only when the world has sky light, its sky-light list (empty when there is none) |
| PlayerView.SpawnFor | src/main/java/com/loohp/limbo/player/PlayerInteractManager.java:73-76 | The spawn packet puts the entity's yaw in the pitch slot and its pitch in the yaw and head-yaw slots, with data 0 and zero velocity |
| PlayerView.EntitiesInRange | src/main/java/com/loohp/limbo/player/PlayerInteractManager.java:67-70 | Only entities of the world are ever in range |
| PlayerViewLemmas.StoredEntitiesAreThoseInRange | src/main/java/com/loohp/limbo/player/PlayerInteractManager.java:67-91 | After an update, an entity is stored iff it is in the world and its squared distance is strictly below `(viewDistance << 4)^2` |
| PlayerView.RangeBound | src/main/java/com/loohp/limbo/player/PlayerInteractManager.java:68-70 | For view distances 0 to 2896 the 32-bit bound `(vd << 4)^2` is the true square of the distance in blocks |
| PlayerView.EntityPackets | src/main/java/com/loohp/limbo/player/PlayerInteractManager.java:71-89 | The entity phase has two packets per arriving entity and one per departed entity |
| PlayerView.ChunkPackets | src/main/java/com/loohp/limbo/player/PlayerInteractManager.java:110-147 | The chunk phase has one packet per unloaded and per entering position, plus the batch start and end |
| PlayerViewLemmas.RangeBoundWrapsAt2897 | src/main/java/com/loohp/limbo/player/PlayerInteractManager.java:68-69 | At 2897 chunks the product wraps to a negative bound and no entity is in range |
| PlayerViewLemmas.SpawnIsFollowedByMetadata | src/main/java/com/loohp/limbo/player/PlayerInteractManager.java:71-79 | Every spawn packet is for an entity now in range that was not known before, is built from its current state, and is followed directly by that entity's metadata |
| PlayerViewLemmas.ArrivalSpawnedOnce | src/main/java/com/loohp/limbo/player/PlayerInteractManager.java:71-79 | An arriving entity gets exactly one spawn and one metadata packet; every other entity gets neither |
| PlayerViewLemmas.DepartedDestroyedOnce | src/main/java/com/loohp/limbo/player/PlayerInteractManager.java:80-89 | A departed entity gets exactly one destroy packet of its own; every other entity gets none |
| PlayerViewLemmas.EntityPacketsPrecedeChunkPackets | src/main/java/com/loohp/limbo/player/PlayerInteractManager.java:71-120 | Every spawn, metadata and destroy packet comes before every chunk packet |
| PlayerViewLemmas.WindowMembership | src/main/java/com/loohp/limbo/player/PlayerInteractManager.java:93-108 | A position is stored iff it is in the player's world with x in [cx − vd, cx + vd) and z in [cz − vd, cz + vd); it holds the world's chunk or the sentinel |
| PlayerViewLemmas.SquareSize | src/main/java/com/loohp/limbo/player/PlayerInteractManager.java:97-108 | The loops' square holds (2·vd)^2 positions, and none when vd ≤ 0 |
| PlayerViewLemmas.WindowSize | src/main/java/com/loohp/limbo/player/PlayerInteractManager.java:97-108 | The stored window holds (2·vd)^2 positions, and none when vd ≤ 0 |
| PlayerViewLemmas.ChunkPhase | src/main/java/com/loohp/limbo/player/PlayerInteractManager.java:110-147 | After the entity packets come one unload per position that left, then the single batch start, then one chunk-data packet per position that entered, then the batch end whose count is the number of entering positions |
| PlayerViewLemmas.UnloadTargetsLeavingPosition | src/main/java/com/loohp/limbo/player/PlayerInteractManager.java:110-116 | Every unload names an old position that is outside the new window |
| PlayerViewLemmas.LeavingPositionUnloaded | src/main/java/com/loohp/limbo/player/PlayerInteractManager.java:110-116 | Every position that left the window is unloaded |
| PlayerViewLemmas.EnteringPositionSentOnce | src/main/java/com/loohp/limbo/player/PlayerInteractManager.java:121-145 | Every position that entered the window gets exactly one chunk-data packet, the sentinel included |
| PlayerViewLemmas.ChunkDataForEnteringPosition | src/main/java/com/loohp/limbo/player/PlayerInteractManager.java:121-145 | Every chunk-data packet is for a position that entered the window |
| PlayerViewLemmas.SecondUpdateSendsEmptyBatch | src/main/java/com/loohp/limbo/player/PlayerInteractManager.java:62-149 | A second update with the same world and position sends only a batch start and a batch end with count 0, and stores the same state |

## Left out

- Floating point is modelled with reals.
  - Doubles and the boss-bar progress float are written through their IEEE-754 bit patterns, which the caller supplies (`doubleBits`, `floatBits`).
  - The angle step `deg * 256F / 360F` is computed exactly, without float rounding.
  - `distanceSquared` is computed on reals.
- Registry and key helpers become parameters: `PacketRegistry.getPacketId` is the `packetId` argument, while `RegistryCustom.DIMENSION_TYPE.indexOf` and `Key.key(..).toString()` are the `dimensionIndex` and `worldKey` functions. Their contents are not part of this model.
- Chat components (`writeComponent`) are opaque pre-encoded byte strings, and a client's component reader is a parameter. Chunk data (NBT) and light bitmask lists are opaque values.
- The static JSON loader of `GeneratedBlockDataMappings` (lines 43-54) is resource I/O; the palette is an input map.
- `sendPacket`, `IOException` and socket I/O: `update` returns the packets it would send.
- Tick scheduling and concurrency: each `update` reads one consistent snapshot of the player and the world. The second `getChunkAt` on line 124 therefore sees the same chunk as the one read on line 101.
- The iteration order of Java's `HashSet` and `HashMap` is not modelled. Each set is enumerated in an order the model does not fix (`Enumerate`), and only the order between groups of packets is stated.
- The entity-metadata packet's contents: the model records only which entity it is for.
- Client states other than PLAY are one abstract state. The player is identified by its UUID. Entities are identified by their id, and the world's entities are a map from id to the fields the update reads.
- PlayerView.Update: the window loops' bounds `cx ± vd` are unbounded integers; a Java int overflow of those bounds, which needs a view distance of about 2^31 (the chunk coordinate is at most 2^27 in size), is not modelled.
- BlockPalette.ResolveByScan: an unknown block name, and an empty state list read at index 0, resolve to `None` where the source throws. A properties tag whose values are not strings is outside the model: supplied properties are a string map.
- BlockPalette.ResolveByScan: each palette state is taken to carry a `properties` object when its block has a `properties` key, as every state of the game's data does.
- Boss.ParseSerialize and TabComplete.ParseSerialize: a round trip holds only for components that the supplied reader recognises.
- Respawn.Serialize: the serialiser looks the dimension up again from the packet's world rather than from the field captured at construction. A world's environment is immutable here, so the two cannot differ as they could if a Java `World` changed its environment in between.
- PlayerView.Update: requires the player to have been set. Run before `setPlayer`, the source dereferences a null player at line 63 and throws a NullPointerException; the model does not represent that failure.
- PlayerView.Update: a player or location without a world is not represented; `PlayerSnapshot` always holds one, and both `player.getWorld()` and `location.getWorld()` are taken to be that world. With a null world the source does not collapse the view to nothing: it throws a NullPointerException when it reads the world's entities at line 70 (and would again at line 101, where the world read at line 95 is asked for a chunk), and the model does not represent that failure.
- Wire.Utf8 and Wire.WriteString: a Dafny `string` is a sequence of Unicode scalar values, while a Java `String` is UTF-16 and may hold an unpaired surrogate, which `getBytes(UTF_8)` writes as `?` (0x3F). Such strings, for example a tab-complete match text, cannot be expressed here.

=== FILE: boss.dfy ===
/** The boss-bar packet (`PacketPlayOutBoss`): the action tag, the packed
    flag byte and the payload each action writes.

    The progress float is written through its IEEE-754 bit pattern, which the
    caller supplies as `floatBits`; the name is an opaque component. */
module Boss {
  import opened Wrappers
  import opened Wire

  /** What the packet tells the client to do with the bar. */
  datatype BossBarAction = Add | Remove | UpdateProgress | UpdateName | UpdateStyle | UpdateProperties

  /** The wire tag of an action.  The source writes the enum's ordinal, so the
      declaration order above is part of the protocol; here the numbering is
      written out. */
  function Ordinal(a: BossBarAction): (n: nat)
    ensures n < 6
  {
    match a
    case Add => 0
    case Remove => 1
    case UpdateProgress => 2
    case UpdateName => 3
    case UpdateStyle => 4
    case UpdateProperties => 5
  }

  /** The action a client reads for a tag. */
  function ActionOf(n: int): Option<BossBarAction>
  {
    if n == 0 then Some(Add)
    else if n == 1 then Some(Remove)
    else if n == 2 then Some(UpdateProgress)
    else if n == 3 then Some(UpdateName)
    else if n == 4 then Some(UpdateStyle)
    else if n == 5 then Some(UpdateProperties)
    else None
  }

  /** Tags and actions are in one-to-one correspondence on 0..5, and no other
      tag names an action. */
  lemma OrdinalBijective(a: BossBarAction, n: int)
    ensures ActionOf(Ordinal(a)) == Some(a)
    ensures ActionOf(n).Some? <==> 0 <= n < 6
    ensures ActionOf(n).Some? ==> Ordinal(ActionOf(n).value) == n
  {
  }

  /** The bar colours and overlays of the adventure library, whose ordinals
      (declaration order) are the protocol's numbering. */
  datatype Color = Pink | Blue | Red | Green | Yellow | Purple | White
  datatype Overlay = Progress | Notched6 | Notched10 | Notched12 | Notched20
  datatype Flag = DarkenScreen | PlayBossMusic | CreateWorldFog

  function ColorOrdinal(c: Color): nat
  {
    match c
    case Pink => 0
    case Blue => 1
    case Red => 2
    case Green => 3
    case Yellow => 4
    case Purple => 5
    case White => 6
  }

  function OverlayOrdinal(o: Overlay): nat
  {
    match o
    case Progress => 0
    case Notched6 => 1
    case Notched10 => 2
    case Notched12 => 3
    case Notched20 => 4
  }

  /** A keyed boss bar: its identity and its current properties. */
  datatype BossBar = BossBar(uuid: Uuid, name: Component, progress: real,
                             color: Color, overlay: Overlay, flags: set<Flag>)

  datatype BossPacket = BossPacket(bar: BossBar, action: BossBarAction)

  /** `encodeProperties`: bit 0 for darken-screen, bit 1 for boss music,
      bit 2 for world fog, all other bits clear. */
  function EncodeProperties(darkenScreen: bool, playMusic: bool, createWorldFog: bool): (r: Byte)
    ensures r < 8
    ensures (r % 2 == 1) == darkenScreen
    ensures ((r / 2) % 2 == 1) == playMusic
    ensures ((r / 4) % 2 == 1) == createWorldFog
  {
    (if darkenScreen then 1 else 0) + (if playMusic then 2 else 0) + (if createWorldFog then 4 else 0)
  }

  /** The three flags a client reads from the flag byte. */
  function DecodeProperties(b: Byte): (bool, bool, bool)
  {
    (b % 2 == 1, (b / 2) % 2 == 1, (b / 4) % 2 == 1)
  }

  /** The flag byte and the three flags determine each other: every flag
      combination is read back, and every byte below 8 is the encoding of the
      flags it carries. */
  lemma PropertiesRoundTrip(d: bool, m: bool, f: bool, b: Byte)
    ensures DecodeProperties(EncodeProperties(d, m, f)) == (d, m, f)
    ensures b < 8 ==> EncodeProperties(DecodeProperties(b).0, DecodeProperties(b).1, DecodeProperties(b).2) == b
  {
  }

  /** Darken-screen and fog without music: 0b101. */
  lemma PropertiesExample()
    ensures EncodeProperties(true, false, true) == 5
  {
  }

  function FlagsByte(bar: BossBar): Byte
  {
    EncodeProperties(DarkenScreen in bar.flags, PlayBossMusic in bar.flags, CreateWorldFog in bar.flags)
  }

  /** The id byte, the bar's UUID and the action tag. */
  function Header(p: BossPacket, packetId: int): (r: seq<Byte>)
    ensures |r| == 18
    ensures r[0] == packetId % 256 && r[1..17] == UuidBytes(p.bar.uuid) && r[17] == Ordinal(p.action)
  {
    SmallVarInt(Ordinal(p.action));
    WriteByte(packetId) + UuidBytes(p.bar.uuid) + VarInt(Ordinal(p.action))
  }

  /** What each action writes after the header. */
  function Payload(p: BossPacket, floatBits: real -> int): seq<Byte>
  {
    var bar := p.bar;
    match p.action
    case Add =>
      ComponentBytes(bar.name) + BigEndian(floatBits(bar.progress), 4)
      + VarInt(ColorOrdinal(bar.color)) + VarInt(OverlayOrdinal(bar.overlay)) + [FlagsByte(bar)]
    case Remove => []
    case UpdateProgress => BigEndian(floatBits(bar.progress), 4)
    case UpdateName => ComponentBytes(bar.name)
    case UpdateStyle => VarInt(ColorOrdinal(bar.color)) + VarInt(OverlayOrdinal(bar.overlay))
    case UpdateProperties => [FlagsByte(bar)]
  }

  /** `serializePacket`. */
  function Serialize(p: BossPacket, packetId: int, floatBits: real -> int): (r: seq<Byte>)
    ensures |r| >= 18 && r[..18] == Header(p, packetId)
  {
    Header(p, packetId) + Payload(p, floatBits)
  }

  // ---------------------------------------------------------------------------
  // Reading the packet back.

  /** The payload a client reads for each action. */
  datatype BossPayload =
    | AddPayload(name: Component, progressBits: int, color: Int32, overlay: Int32, flags: Byte)
    | RemovePayload
    | ProgressPayload(progressBits: int)
    | NamePayload(name: Component)
    | StylePayload(color: Int32, overlay: Int32)
    | PropertiesPayload(flags: Byte)

  datatype BossWire = BossWire(packetId: Byte, uuid: Uuid, action: BossBarAction, payload: BossPayload)

  function ParsePayload(action: BossBarAction, bs: seq<Byte>, read: ComponentReader): Option<BossPayload>
  {
    match action
    case Add =>
      var n :- read(bs);
      var f :- ParseFixed(n.1, 4);
      var c :- ParseVarInt(f.1);
      var o :- ParseVarInt(c.1);
      if |o.1| != 1 then None else Some(AddPayload(n.0, f.0, c.0, o.0, o.1[0]))
    case Remove =>
      if |bs| != 0 then None else Some(RemovePayload)
    case UpdateProgress =>
      var f :- ParseFixed(bs, 4);
      if |f.1| != 0 then None else Some(ProgressPayload(f.0))
    case UpdateName =>
      var n :- read(bs);
      if |n.1| != 0 then None else Some(NamePayload(n.0))
    case UpdateStyle =>
      var c :- ParseVarInt(bs);
      var o :- ParseVarInt(c.1);
      if |o.1| != 0 then None else Some(StylePayload(c.0, o.0))
    case UpdateProperties =>
      if |bs| != 1 then None else Some(PropertiesPayload(bs[0]))
  }

  /** Reads a whole boss-bar packet; an unknown action tag is refused. */
  function Parse(bs: seq<Byte>, read: ComponentReader): Option<BossWire>
  {
    if |bs| == 0 then None
    else
      var u :- ParseUuid(bs[1..]);
      var t :- ParseVarInt(u.1);
      var action :- ActionOf(t.0);
      var payload :- ParsePayload(action, t.1, read);
      Some(BossWire(bs[0], u.0, action, payload))
  }

  /** What a client reads for a packet: exactly the fields the action needs. */
  function Expected(p: BossPacket, packetId: int, floatBits: real -> int): BossWire
  {
    var bar := p.bar;
    var progress := ToSigned(floatBits(bar.progress), 4);
    var payload :=
      match p.action
      case Add => AddPayload(bar.name, progress, ColorOrdinal(bar.color), OverlayOrdinal(bar.overlay), FlagsByte(bar))
      case Remove => RemovePayload
      case UpdateProgress => ProgressPayload(progress)
      case UpdateName => NamePayload(bar.name)
      case UpdateStyle => StylePayload(ColorOrdinal(bar.color), OverlayOrdinal(bar.overlay))
      case UpdateProperties => PropertiesPayload(FlagsByte(bar));
    BossWire(packetId % 256, bar.uuid, p.action, payload)
  }

  lemma PayloadRoundTrip(p: BossPacket, floatBits: real -> int, read: ComponentReader)
    requires Reads(read, p.bar.name)
    ensures ParsePayload(p.action, Payload(p, floatBits), read) == Some(Expected(p, 0, floatBits).payload)
  {
    var bar := p.bar;
    var style := VarInt(ColorOrdinal(bar.color)) + VarInt(OverlayOrdinal(bar.overlay));
    match p.action
    case Add =>
      var tail := VarInt(OverlayOrdinal(bar.overlay)) + [FlagsByte(bar)];
      var styled := VarInt(ColorOrdinal(bar.color)) + tail;
      var progressed := BigEndian(floatBits(bar.progress), 4) + styled;
      assert Payload(p, floatBits) == bar.name.encoded + progressed;
      assert ReadsBefore(read, bar.name, progressed);
      FixedRoundTrip(floatBits(bar.progress), 4, styled);
      VarIntRoundTrip(ColorOrdinal(bar.color), tail);
      VarIntRoundTrip(OverlayOrdinal(bar.overlay), [FlagsByte(bar)]);
    case Remove =>
    case UpdateProgress =>
      FixedRoundTrip(floatBits(bar.progress), 4, []);
      assert Payload(p, floatBits) + [] == Payload(p, floatBits);
    case UpdateName =>
      assert Payload(p, floatBits) == bar.name.encoded + [];
      assert ReadsBefore(read, bar.name, []);
    case UpdateStyle =>
      VarIntRoundTrip(ColorOrdinal(bar.color), VarInt(OverlayOrdinal(bar.overlay)));
      VarIntRoundTrip(OverlayOrdinal(bar.overlay), []);
      assert VarInt(OverlayOrdinal(bar.overlay)) + [] == VarInt(OverlayOrdinal(bar.overlay));
    case UpdateProperties =>
  }

  lemma ParseOfParts(bs: seq<Byte>, read: ComponentReader, u: Uuid, tagged: seq<Byte>,
                     action: BossBarAction, body: seq<Byte>, payload: BossPayload)
    requires |bs| > 0 && ParseUuid(bs[1..]) == Some((u, tagged))
    requires ParseVarInt(tagged) == Some((Ordinal(action), body))
    requires ParsePayload(action, body, read) == Some(payload)
    ensures Parse(bs, read) == Some(BossWire(bs[0], u, action, payload))
  {
    OrdinalBijective(action, 0);
  }

  lemma SerializeShape(p: BossPacket, packetId: int, floatBits: real -> int)
    ensures var r := Serialize(p, packetId, floatBits);
            r[0] == packetId % 256
            && r[1..] == UuidBytes(p.bar.uuid) + (VarInt(Ordinal(p.action)) + Payload(p, floatBits))
  {
    var id, uuid, tag, payload := WriteByte(packetId), UuidBytes(p.bar.uuid), VarInt(Ordinal(p.action)),
                                  Payload(p, floatBits);
    assert Serialize(p, packetId, floatBits) == id + uuid + tag + payload;
    Regroup4(id, uuid, tag, payload);
    SplitAt(id, uuid + (tag + payload));
  }

  /** Every packet is read back whole: the header, then exactly the payload
      its action calls for, and nothing after it. */
  lemma ParseSerialize(p: BossPacket, packetId: int, floatBits: real -> int, read: ComponentReader)
    requires Reads(read, p.bar.name)
    ensures Parse(Serialize(p, packetId, floatBits), read) == Some(Expected(p, packetId, floatBits))
  {
    var payload := Payload(p, floatBits);
    var tagged := VarInt(Ordinal(p.action)) + payload;
    var all := Serialize(p, packetId, floatBits);
    SerializeShape(p, packetId, floatBits);
    UuidRoundTrip(p.bar.uuid, tagged);
    VarIntRoundTrip(Ordinal(p.action), payload);
    PayloadRoundTrip(p, floatBits, read);
    ParseOfParts(all, read, p.bar.uuid, tagged, p.action, payload, Expected(p, 0, floatBits).payload);
  }

  /** The payload's size per action: REMOVE writes nothing after the header,
      UPDATE_PROGRESS four bytes, UPDATE_PROPERTIES one, UPDATE_NAME exactly
      the name and UPDATE_STYLE exactly two single-byte ordinals. */
  lemma PayloadSizes(p: BossPacket, packetId: int, floatBits: real -> int)
    ensures p.action == Remove ==> Serialize(p, packetId, floatBits) == Header(p, packetId)
    ensures p.action == UpdateProgress ==> |Serialize(p, packetId, floatBits)| == 22
    ensures p.action == UpdateName ==> Serialize(p, packetId, floatBits)[18..] == p.bar.name.encoded
    ensures p.action == UpdateStyle ==> Serialize(p, packetId, floatBits)[18..]
                                        == [ColorOrdinal(p.bar.color), OverlayOrdinal(p.bar.overlay)]
    ensures p.action == UpdateProperties ==> Serialize(p, packetId, floatBits)[18..] == [FlagsByte(p.bar)]
    ensures p.action == Add ==> |Serialize(p, packetId, floatBits)| == 18 + |p.bar.name.encoded| + 4 + 1 + 1 + 1
  {
    var r := Serialize(p, packetId, floatBits);
    assert r[18..] == Payload(p, floatBits);
    if p.action == UpdateStyle {
      SmallVarInt(ColorOrdinal(p.bar.color));
      SmallVarInt(OverlayOrdinal(p.bar.overlay));
    } else if p.action == Add {
      SmallVarInt(ColorOrdinal(p.bar.color));
      SmallVarInt(OverlayOrdinal(p.bar.overlay));
    }
  }

}

=== FILE: palette.dfy ===
/** The global block palette (`GeneratedBlockDataMappings`): resolving a
    block-state tag, as read from a schematic or chunk, to its numeric id.

    The palette is the parsed `reports/blocks.json` resource: for each block
    name, whether it declares properties and its list of states, each with
    its property values, its id and its `default` flag.  A resolution that
    makes the source throw (an unknown block name, or an empty state list
    read at index 0) is `None` here. */
module BlockPalette {
  import opened Wrappers
  import opened Wire

  /** One entry of a block's `states` array; a state without a `default` key
      has `isDefault == false`. */
  datatype BlockState = BlockState(properties: map<string, string>, id: Int64, isDefault: bool)

  /** A block of the palette; `hasProperties` says whether its JSON object has
      a `properties` key. */
  datatype BlockEntry = BlockEntry(hasProperties: bool, states: seq<BlockState>)

  type Palette = map<string, BlockEntry>

  /** The tag handed in: its `Name` and, if present, its `Properties`
      compound, as a map from key to string value. */
  datatype BlockTag = BlockTag(name: string, properties: Option<map<string, string>>)

  /** A state matches the supplied properties when every key it declares is
      supplied with the same value; supplied keys it does not declare are
      ignored. */
  predicate Matches(state: BlockState, supplied: map<string, string>)
    ensures Matches(state, supplied) ==> state.properties.Keys <= supplied.Keys
    ensures state.properties == map[] ==> Matches(state, supplied)
  {
    forall k :: k in state.properties ==> k in supplied && supplied[k] == state.properties[k]
  }

  predicate IsDefault(state: BlockState)
  {
    state.isDefault
  }

  /** The index of the first element satisfying `p`, scanning in order. */
  function FirstIndex<T>(s: seq<T>, p: T -> bool): (r: Option<nat>)
    ensures r.Some? ==> r.value < |s| && p(s[r.value])
    ensures r.Some? ==> forall j :: 0 <= j < r.value ==> !p(s[j])
    ensures r.None? <==> forall j :: 0 <= j < |s| ==> !p(s[j])
    decreases |s|
  {
    if |s| == 0 then None
    else if p(s[0]) then Some(0)
    else
      match FirstIndex(s[1..], p)
      case None => None
      case Some(i) => Some(i + 1)
  }

  /** The id as the `(int) (long)` cast gives it. */
  function StateId(state: BlockState): (r: Int32)
    ensures (r - state.id) % TWO_32 == 0
    ensures -0x8000_0000 <= state.id < 0x8000_0000 ==> r == state.id
  {
    ToInt32(state.id)
  }

  /** `getGlobalPaletteIDFromState`. */
  function Resolve(palette: Palette, tag: BlockTag): (r: Option<Int32>)
    ensures r.None? <==> tag.name !in palette
                         || (!palette[tag.name].hasProperties && |palette[tag.name].states| == 0)
  {
    if tag.name !in palette then None
    else
      var states := palette[tag.name].states;
      if !palette[tag.name].hasProperties then
        if |states| == 0 then None else Some(StateId(states[0]))
      else
        var matched := if tag.properties.Some? then FirstIndex(states, s => Matches(s, tag.properties.value)) else None;
        if matched.Some? then Some(StateId(states[matched.value]))
        else
          match FirstIndex(states, IsDefault)
          case Some(j) => Some(StateId(states[j]))
          case None => Some(0)
  }

  // ---------------------------------------------------------------------------
  // The resolver as the source writes it: two scans over the state list.

  /** The same resolution with the source's loops: first the property scan
      (only when the tag has properties), then the default scan, then 0. */
  method ResolveByScan(palette: Palette, tag: BlockTag) returns (r: Option<Int32>)
    ensures r.None? <==> tag.name !in palette
                         || (!palette[tag.name].hasProperties && |palette[tag.name].states| == 0)
    ensures r.Some? && !palette[tag.name].hasProperties ==> r.value == StateId(palette[tag.name].states[0])
    ensures r == Resolve(palette, tag)
  {
    if tag.name !in palette {
      return None;
    }
    var entry := palette[tag.name];
    if !entry.hasProperties {
      if |entry.states| == 0 {
        return None;
      }
      return Some(StateId(entry.states[0]));
    }
    if tag.properties.Some? {
      var supplied := tag.properties.value;
      var i := 0;
      while i < |entry.states|
        invariant 0 <= i <= |entry.states|
        invariant forall j :: 0 <= j < i ==> !Matches(entry.states[j], supplied)
      {
        if Matches(entry.states[i], supplied) {
          assert (s => Matches(s, supplied))(entry.states[i]);
          return Some(StateId(entry.states[i]));
        }
        i := i + 1;
      }
      assert FirstIndex(entry.states, s => Matches(s, supplied)).None? by {
        forall j | 0 <= j < |entry.states|
          ensures !(s => Matches(s, supplied))(entry.states[j])
        {
        }
      }
    }
    var k := 0;
    while k < |entry.states|
      invariant 0 <= k <= |entry.states|
      invariant forall j :: 0 <= j < k ==> !entry.states[j].isDefault
    {
      if entry.states[k].isDefault {
        assert IsDefault(entry.states[k]);
        return Some(StateId(entry.states[k]));
      }
      k := k + 1;
    }
    assert FirstIndex(entry.states, IsDefault).None? by {
      forall j | 0 <= j < |entry.states|
        ensures !IsDefault(entry.states[j])
      {
      }
    }
    return Some(0);
  }

  // ---------------------------------------------------------------------------
  // What the resolution means.

  /** A block without a `properties` key resolves to its first state,
      whatever the tag supplies and whichever state is the default. */
  lemma WithoutPropertiesFirstState(palette: Palette, tag: BlockTag)
    requires tag.name in palette && !palette[tag.name].hasProperties
    requires |palette[tag.name].states| > 0
    ensures Resolve(palette, tag) == Some(StateId(palette[tag.name].states[0]))
  {
  }

  /** With supplied properties, the first state in list order whose declared
      properties all agree wins. */
  lemma FirstMatchWins(palette: Palette, tag: BlockTag, i: nat)
    requires tag.name in palette && palette[tag.name].hasProperties && tag.properties.Some?
    requires i < |palette[tag.name].states| && Matches(palette[tag.name].states[i], tag.properties.value)
    requires forall j :: 0 <= j < i ==> !Matches(palette[tag.name].states[j], tag.properties.value)
    ensures Resolve(palette, tag) == Some(StateId(palette[tag.name].states[i]))
  {
    var states := palette[tag.name].states;
    assert (s => Matches(s, tag.properties.value))(states[i]);
  }

  /** When no state matches, or the tag has no properties, the first state
      flagged as default wins. */
  lemma DefaultWhenNoMatch(palette: Palette, tag: BlockTag, k: nat)
    requires tag.name in palette && palette[tag.name].hasProperties
    requires tag.properties.Some? ==> forall j :: 0 <= j < |palette[tag.name].states| ==> !Matches(palette[tag.name].states[j], tag.properties.value)
    requires k < |palette[tag.name].states| && palette[tag.name].states[k].isDefault
    requires forall j :: 0 <= j < k ==> !palette[tag.name].states[j].isDefault
    ensures Resolve(palette, tag) == Some(StateId(palette[tag.name].states[k]))
  {
    var states := palette[tag.name].states;
    if tag.properties.Some? {
      forall j | 0 <= j < |states|
        ensures !(s => Matches(s, tag.properties.value))(states[j])
      {
      }
    }
    assert IsDefault(states[k]);
  }

  /** With no match and no default state, the result is 0. */
  lemma ZeroWhenNothingApplies(palette: Palette, tag: BlockTag)
    requires tag.name in palette && palette[tag.name].hasProperties
    requires tag.properties.Some? ==> forall j :: 0 <= j < |palette[tag.name].states| ==> !Matches(palette[tag.name].states[j], tag.properties.value)
    requires forall j :: 0 <= j < |palette[tag.name].states| ==> !palette[tag.name].states[j].isDefault
    ensures Resolve(palette, tag) == Some(0)
  {
    var states := palette[tag.name].states;
    if tag.properties.Some? {
      forall j | 0 <= j < |states|
        ensures !(s => Matches(s, tag.properties.value))(states[j])
      {
      }
    }
    forall j | 0 <= j < |states|
      ensures !IsDefault(states[j])
    {
    }
  }

  /** Every resolved id is the id of one of the block's states, or 0. */
  lemma ResolvedIdIsAStateOrZero(palette: Palette, tag: BlockTag)
    requires Resolve(palette, tag).Some?
    ensures tag.name in palette
    ensures Resolve(palette, tag).value == 0
            || exists j :: 0 <= j < |palette[tag.name].states| && Resolve(palette, tag).value == StateId(palette[tag.name].states[j])
  {
    var states := palette[tag.name].states;
    if !palette[tag.name].hasProperties {
      assert Resolve(palette, tag).value == StateId(states[0]);
    } else {
      var matched := if tag.properties.Some? then FirstIndex(states, s => Matches(s, tag.properties.value)) else None;
      if matched.Some? {
        assert Resolve(palette, tag).value == StateId(states[matched.value]);
      } else if FirstIndex(states, IsDefault).Some? {
        var j := FirstIndex(states, IsDefault).value;
        assert Resolve(palette, tag).value == StateId(states[j]);
      }
    }
  }

  /** A state never matches supplied properties that leave out one of its
      declared keys. */
  lemma MissingKeyNeverMatches(state: BlockState, supplied: map<string, string>, key: string)
    requires key in state.properties && key !in supplied
    ensures !Matches(state, supplied)
  {
  }

  /** A supplied key that no state declares changes nothing: the resolved id
      is the same with or without it. */
  lemma UndeclaredKeyIgnored(palette: Palette, tag: BlockTag, key: string, value: string)
    requires tag.name in palette && tag.properties.Some?
    requires forall j :: 0 <= j < |palette[tag.name].states| ==> key !in palette[tag.name].states[j].properties
    ensures Resolve(palette, BlockTag(tag.name, Some(tag.properties.value[key := value]))) == Resolve(palette, tag)
  {
    var states := palette[tag.name].states;
    var before := tag.properties.value;
    var after := before[key := value];
    forall j | 0 <= j < |states|
      ensures Matches(states[j], after) == Matches(states[j], before)
    {
      assert key !in states[j].properties;
    }
    FirstIndexAgree(states, s => Matches(s, after), s => Matches(s, before));
  }

  /** Two predicates that agree on every element pick the same first index. */
  lemma {:induction false} FirstIndexAgree<T>(s: seq<T>, p: T -> bool, q: T -> bool)
    requires forall j :: 0 <= j < |s| ==> p(s[j]) == q(s[j])
    ensures FirstIndex(s, p) == FirstIndex(s, q)
    decreases |s|
  {
    if |s| > 0 {
      FirstIndexAgree(s[1..], p, q);
    }
  }

}

=== FILE: respawn.dfy ===
/** The respawn packet (`PacketPlayOutRespawn`): a dimension index, the world
    key, and a fixed 13-byte tail.

    The dimension registry (`RegistryCustom.DIMENSION_TYPE.indexOf`) and the
    key formatting (`Key.key(name).toString()`) are not part of this model;
    the serialiser takes them as the functions `dimensionIndex` and `worldKey`. */
module Respawn {
  import opened Wrappers
  import opened Wire

  /** A world's environment, identified by its dimension-type key. */
  datatype Environment = Environment(key: string)

  datatype World = World(name: string, environment: Environment)

  datatype RespawnPacket = RespawnPacket(
    dimension: Environment,
    world: World,
    hashedSeed: Int64,
    gamemodeId: int,
    isDebug: bool,
    isFlat: bool,
    copyMetaData: bool)

  /** The constructor: the dimension is the world's environment at the time
      the packet is built. */
  function NewRespawn(world: World, hashedSeed: Int64, gamemodeId: int,
                      isDebug: bool, isFlat: bool, copyMetaData: bool): (p: RespawnPacket)
    ensures p.dimension == world.environment
    ensures p.world == world && p.hashedSeed == hashedSeed && p.gamemodeId == gamemodeId
    ensures p.isDebug == isDebug && p.isFlat == isFlat && p.copyMetaData == copyMetaData
  {
    RespawnPacket(world.environment, world, hashedSeed, gamemodeId, isDebug, isFlat, copyMetaData)
  }

  /** The seed, the gamemode byte twice, and the three flags. */
  function Tail(p: RespawnPacket): (r: seq<Byte>)
    ensures |r| == 13
    ensures FromBigEndian(r[..8]) == p.hashedSeed % 0x1_0000_0000_0000_0000
    ensures r[8] == r[9] == p.gamemodeId % 256
    ensures r[10..] == [if p.isDebug then 1 else 0, if p.isFlat then 1 else 0, if p.copyMetaData then 1 else 0]
  {
    var seed := BigEndian(p.hashedSeed, 8);
    var flags := WriteByte(p.gamemodeId) + WriteByte(p.gamemodeId)
                 + WriteBoolean(p.isDebug) + WriteBoolean(p.isFlat) + WriteBoolean(p.copyMetaData);
    SplitAt(seed, flags);
    LongBytes(p.hashedSeed);
    assert (seed + flags)[10..] == flags[2..];
    seed + flags
  }

  /** `serializePacket`: the id byte, the VarInt dimension index, the world
      key string, then the tail.  The dimension is looked up again from the
      packet's world, not from the captured `dimension` field. */
  function Serialize(p: RespawnPacket, packetId: int, dimensionIndex: Environment -> Int32,
                     worldKey: string -> string): (r: seq<Byte>)
    ensures |r| >= 13 + 1 + 1
    ensures r[|r| - 13..] == Tail(p)
  {
    var head := WriteByte(packetId) + VarInt(dimensionIndex(p.world.environment)) + WriteString(worldKey(p.world.name));
    var r := head + Tail(p);
    assert r[|r| - 13..] == Tail(p);
    r
  }

  // ---------------------------------------------------------------------------
  // Reading the packet back.

  datatype RespawnWire = RespawnWire(packetId: Byte, dimensionIndex: Int32, worldKey: string,
                                     hashedSeed: Int64, gamemode: Byte, previousGamemode: Byte,
                                     isDebug: bool, isFlat: bool, copyMetaData: bool)

  /** Reads the 13-byte tail; `readBoolean` takes any non-zero byte as true. */
  function ParseTail(bs: seq<Byte>): Option<(Int64, Byte, Byte, bool, bool, bool)>
  {
    var s :- ParseLong(bs);
    if |s.1| != 5 then None
    else Some((s.0, s.1[0], s.1[1], s.1[2] != 0, s.1[3] != 0, s.1[4] != 0))
  }

  function Parse(bs: seq<Byte>): Option<RespawnWire>
  {
    if |bs| == 0 then None
    else
      var d :- ParseVarInt(bs[1..]);
      var k :- ParseString(d.1);
      var t :- ParseTail(k.1);
      var (seed, gamemode, previous, debug, flat, copy) := t;
      Some(RespawnWire(bs[0], d.0, k.0, seed, gamemode, previous, debug, flat, copy))
  }

  lemma TailRoundTrip(p: RespawnPacket)
    ensures ParseTail(Tail(p)) == Some((p.hashedSeed, p.gamemodeId % 256, p.gamemodeId % 256,
                                        p.isDebug, p.isFlat, p.copyMetaData))
  {
    var flags := WriteByte(p.gamemodeId) + WriteByte(p.gamemodeId)
                 + WriteBoolean(p.isDebug) + WriteBoolean(p.isFlat) + WriteBoolean(p.copyMetaData);
    assert Tail(p) == BigEndian(p.hashedSeed, 8) + flags;
    LongRoundTrip(p.hashedSeed, flags);
  }

  lemma SerializeShape(p: RespawnPacket, packetId: int, dimensionIndex: Environment -> Int32,
                       worldKey: string -> string)
    ensures var r := Serialize(p, packetId, dimensionIndex, worldKey);
            r[0] == packetId % 256
            && r[1..] == VarInt(dimensionIndex(p.world.environment)) + (WriteString(worldKey(p.world.name)) + Tail(p))
  {
    var id, dim, key, tail := WriteByte(packetId), VarInt(dimensionIndex(p.world.environment)),
                              WriteString(worldKey(p.world.name)), Tail(p);
    assert Serialize(p, packetId, dimensionIndex, worldKey) == id + dim + key + tail;
    Regroup4(id, dim, key, tail);
    SplitAt(id, dim + (key + tail));
  }

  /** A packet whose world key fits a Java byte array is read back whole:
      the id byte, the dimension index and world key exactly, the seed, the
      gamemode byte in both gamemode slots, and the three flags in order. */
  lemma ParseSerialize(p: RespawnPacket, packetId: int, dimensionIndex: Environment -> Int32,
                       worldKey: string -> string)
    requires |Utf8(worldKey(p.world.name))| < 0x8000_0000
    ensures Parse(Serialize(p, packetId, dimensionIndex, worldKey))
         == Some(RespawnWire(packetId % 256, dimensionIndex(p.world.environment), worldKey(p.world.name),
                             p.hashedSeed, p.gamemodeId % 256, p.gamemodeId % 256,
                             p.isDebug, p.isFlat, p.copyMetaData))
  {
    var key := worldKey(p.world.name);
    SerializeShape(p, packetId, dimensionIndex, worldKey);
    VarIntRoundTrip(dimensionIndex(p.world.environment), WriteString(key) + Tail(p));
    StringRoundTrip(key, Tail(p));
    TailRoundTrip(p);
  }

}

=== FILE: spawn_entity.dfy ===
/** The spawn-entity packet (`PacketPlayOutSpawnEntity`): its constructors and
    its byte layout.

    Floating point is not modelled bit by bit.  Coordinates and angles are
    reals; `writeDouble` is `writeLong` of the IEEE-754 bit pattern, which the
    caller supplies as `doubleBits`; the angle step `(int) (deg * 256 / 360)`
    is computed exactly, without float rounding. */
module SpawnEntity {
  import opened Wrappers
  import opened Wire

  /** A position with its orientation, in degrees. */
  datatype Location = Location(x: real, y: real, z: real, yaw: real, pitch: real)

  datatype Vector = Vector(x: real, y: real, z: real)

  const ZERO: Vector := Vector(0.0, 0.0, 0.0)

  /** The packet's final fields. */
  datatype SpawnEntityPacket = SpawnEntityPacket(
    entityId: Int32,
    uuid: Uuid,
    typeId: Int32,
    x: real, y: real, z: real,
    pitch: real, yaw: real, headYaw: real,
    data: Int32,
    velocityX: Int16, velocityY: Int16, velocityZ: Int16)

  /** A Java `(short)` cast of an int: the low 16 bits, read as signed. */
  function ToInt16(v: int): (s: Int16)
    ensures (s - v) % 0x1_0000 == 0
  {
    var w := v % 0x1_0000;
    assert v == (v / 0x1_0000) * 0x1_0000 + w;
    if w >= 0x8000 then w - 0x1_0000 else w
  }

  /** A Java `(short)` cast of a double: first `(int)`, then the low 16 bits. */
  function DoubleToShort(d: real): (s: Int16)
    ensures (s - DoubleToInt(d)) % 0x1_0000 == 0
  {
    ToInt16(DoubleToInt(d))
  }

  /** The constructor taking a location, a head yaw, a data value and a
      velocity vector.  The location's pitch goes to the pitch field and its
      yaw to the yaw field; each velocity component is narrowed to a short. */
  function WithVelocity(entityId: Int32, uuid: Uuid, typeId: Int32, location: Location,
                        headYaw: real, data: Int32, velocity: Vector): (p: SpawnEntityPacket)
    ensures p.entityId == entityId && p.uuid == uuid && p.typeId == typeId
    ensures p.x == location.x && p.y == location.y && p.z == location.z && p.data == data
    ensures p.pitch == location.pitch && p.yaw == location.yaw && p.headYaw == headYaw
    ensures (p.velocityX - DoubleToInt(velocity.x)) % 0x1_0000 == 0
    ensures (p.velocityY - DoubleToInt(velocity.y)) % 0x1_0000 == 0
    ensures (p.velocityZ - DoubleToInt(velocity.z)) % 0x1_0000 == 0
  {
    SpawnEntityPacket(entityId, uuid, typeId, location.x, location.y, location.z,
                      location.pitch, location.yaw, headYaw, data,
                      DoubleToShort(velocity.x), DoubleToShort(velocity.y), DoubleToShort(velocity.z))
  }

  /** The constructor taking only a location: no head yaw, no data, at rest. */
  function FromLocation(entityId: Int32, uuid: Uuid, typeId: Int32, location: Location): (p: SpawnEntityPacket)
    ensures p.entityId == entityId && p.uuid == uuid && p.typeId == typeId
    ensures p.x == location.x && p.y == location.y && p.z == location.z
    ensures p.pitch == location.pitch && p.yaw == location.yaw
    ensures p.headYaw == 0.0 && p.data == 0
    ensures p.velocityX == 0 && p.velocityY == 0 && p.velocityZ == 0
  {
    WithVelocity(entityId, uuid, typeId, location, 0.0, 0, ZERO)
  }

  // ---------------------------------------------------------------------------
  // Field encodings.

  /** The angle step: `(int) (deg * 256 / 360)`, 256 steps to a full turn. */
  function AngleStep(deg: real): Int32
  {
    DoubleToInt(deg * 256.0 / 360.0)
  }

  /** `writeByte((byte) step)`: the step wrapped into one byte, never clamped. */
  function AngleByte(deg: real): (b: Byte)
    ensures (b - AngleStep(deg)) % 256 == 0
  {
    AngleStep(deg) % 256
  }

  /** `writeShort(v * 8000)`: the product is an int that cannot overflow for a
      short `v`, and only its low 16 bits are written. */
  function VelocityBytes(v: Int16): (r: seq<Byte>)
    ensures -0x8000_0000 <= v * 8000 < 0x8000_0000
    ensures |r| == 2 && FromBigEndian(r) == (v * 8000) % 0x1_0000
    ensures v == 0 ==> r == [0, 0]
  {
    BigEndianRoundTrip(v * 8000, 2);
    BigEndian(v * 8000, 2)
  }

  function CoordinateBytes(p: SpawnEntityPacket, doubleBits: real -> int): (r: seq<Byte>)
    ensures |r| == 24
  {
    BigEndian(doubleBits(p.x), 8) + BigEndian(doubleBits(p.y), 8) + BigEndian(doubleBits(p.z), 8)
  }

  function AngleBytes(p: SpawnEntityPacket): (r: seq<Byte>)
    ensures |r| == 3
  {
    [AngleByte(p.pitch), AngleByte(p.yaw), AngleByte(p.headYaw)]
  }

  function VelocityTail(p: SpawnEntityPacket): (r: seq<Byte>)
    ensures |r| == 6
  {
    VelocityBytes(p.velocityX) + VelocityBytes(p.velocityY) + VelocityBytes(p.velocityZ)
  }

  /** `serializePacket`: the id byte, VarInt entity id, UUID, VarInt type id,
      three doubles, three angle bytes, VarInt data, three velocity shorts. */
  function Serialize(p: SpawnEntityPacket, packetId: int, doubleBits: real -> int): (r: seq<Byte>)
    ensures |r| == 1 + |VarInt(p.entityId)| + 16 + |VarInt(p.typeId)| + 24 + 3 + |VarInt(p.data)| + 6
  {
    WriteByte(packetId)
    + VarInt(p.entityId)
    + UuidBytes(p.uuid)
    + VarInt(p.typeId)
    + CoordinateBytes(p, doubleBits)
    + AngleBytes(p)
    + VarInt(p.data)
    + VelocityTail(p)
  }

  // ---------------------------------------------------------------------------
  // Reading the packet back.

  /** The packet as a client reads it off the wire. */
  datatype SpawnEntityWire = SpawnEntityWire(
    packetId: Byte,
    entityId: Int32,
    uuid: Uuid,
    typeId: Int32,
    xBits: int, yBits: int, zBits: int,
    pitch: Byte, yaw: Byte, headYaw: Byte,
    data: Int32,
    velocityX: int, velocityY: int, velocityZ: int)

  /** Three fixed-width integers of `n` bytes each. */
  function ParseTriple(bs: seq<Byte>, n: nat): Option<((int, int, int), seq<Byte>)>
  {
    var a :- ParseFixed(bs, n);
    var b :- ParseFixed(a.1, n);
    var c :- ParseFixed(b.1, n);
    Some(((a.0, b.0, c.0), c.1))
  }

  lemma TripleRoundTrip(u: int, v: int, w: int, n: nat, rest: seq<Byte>)
    ensures ParseTriple(BigEndian(u, n) + BigEndian(v, n) + BigEndian(w, n) + rest, n)
         == Some(((ToSigned(u, n), ToSigned(v, n), ToSigned(w, n)), rest))
  {
    var wB := BigEndian(w, n) + rest;
    var vB := BigEndian(v, n) + wB;
    assert BigEndian(u, n) + BigEndian(v, n) + BigEndian(w, n) + rest == BigEndian(u, n) + vB;
    FixedRoundTrip(u, n, vB);
    FixedRoundTrip(v, n, wB);
    FixedRoundTrip(w, n, rest);
  }

  /** The id byte, entity id, UUID and type id. */
  function ParseHead(bs: seq<Byte>): Option<((Byte, Int32, Uuid, Int32), seq<Byte>)>
  {
    if |bs| == 0 then None
    else
      var a :- ParseVarInt(bs[1..]);
      var b :- ParseUuid(a.1);
      var c :- ParseVarInt(b.1);
      Some(((bs[0], a.0, b.0, c.0), c.1))
  }

  lemma HeadRoundTrip(p: SpawnEntityPacket, packetId: int, rest: seq<Byte>)
    ensures ParseHead(WriteByte(packetId) + VarInt(p.entityId) + UuidBytes(p.uuid) + VarInt(p.typeId) + rest)
         == Some(((packetId % 256, p.entityId, p.uuid, p.typeId), rest))
  {
    var tB := VarInt(p.typeId) + rest;
    var uB := UuidBytes(p.uuid) + tB;
    var eB := VarInt(p.entityId) + uB;
    Regroup5(WriteByte(packetId), VarInt(p.entityId), UuidBytes(p.uuid), VarInt(p.typeId), rest);
    SplitAt(WriteByte(packetId), eB);
    VarIntRoundTrip(p.entityId, uB);
    UuidRoundTrip(p.uuid, tB);
    VarIntRoundTrip(p.typeId, rest);
  }

  /** The three angle bytes, the VarInt data and the three velocity shorts,
      which must end the input. */
  function ParseTail(bs: seq<Byte>): Option<((Byte, Byte, Byte), Int32, (int, int, int))>
  {
    if |bs| < 3 then None
    else
      var d :- ParseVarInt(bs[3..]);
      var v :- ParseTriple(d.1, 2);
      if |v.1| != 0 then None else Some(((bs[0], bs[1], bs[2]), d.0, v.0))
  }

  lemma TailRoundTrip(p: SpawnEntityPacket)
    ensures ParseTail(AngleBytes(p) + VarInt(p.data) + VelocityTail(p))
         == Some(((AngleByte(p.pitch), AngleByte(p.yaw), AngleByte(p.headYaw)), p.data,
                  (ToSigned(p.velocityX * 8000, 2), ToSigned(p.velocityY * 8000, 2), ToSigned(p.velocityZ * 8000, 2))))
  {
    var vB := VelocityTail(p);
    var all := AngleBytes(p) + VarInt(p.data) + vB;
    assert all[3..] == VarInt(p.data) + vB;
    VarIntRoundTrip(p.data, vB);
    assert vB == BigEndian(p.velocityX * 8000, 2) + BigEndian(p.velocityY * 8000, 2) + BigEndian(p.velocityZ * 8000, 2) + [];
    TripleRoundTrip(p.velocityX * 8000, p.velocityY * 8000, p.velocityZ * 8000, 2, []);
  }

  /** Reads a whole spawn-entity packet; fails on a short or overlong input. */
  function Parse(bs: seq<Byte>): Option<SpawnEntityWire>
  {
    var h :- ParseHead(bs);
    var c :- ParseTriple(h.1, 8);
    var t :- ParseTail(c.1);
    var (id, eid, uuid, typeId) := h.0;
    var (x, y, z) := c.0;
    var (angles, data, velocity) := t;
    Some(SpawnEntityWire(id, eid, uuid, typeId, x, y, z, angles.0, angles.1, angles.2,
                         data, velocity.0, velocity.1, velocity.2))
  }

  /** What a client reads for a packet: the ids, UUID, type and data exactly;
      the double bit patterns; each angle as its wrapped step; each velocity
      as the signed low 16 bits of `v * 8000`. */
  function Expected(p: SpawnEntityPacket, packetId: int, doubleBits: real -> int): SpawnEntityWire
  {
    SpawnEntityWire(packetId % 256, p.entityId, p.uuid, p.typeId,
                    ToSigned(doubleBits(p.x), 8), ToSigned(doubleBits(p.y), 8), ToSigned(doubleBits(p.z), 8),
                    AngleByte(p.pitch), AngleByte(p.yaw), AngleByte(p.headYaw),
                    p.data,
                    ToSigned(p.velocityX * 8000, 2), ToSigned(p.velocityY * 8000, 2), ToSigned(p.velocityZ * 8000, 2))
  }

  /** Serialisation is read back field by field: every field sits where the
      layout puts it, and nothing else is written. */
  lemma ParseSerialize(p: SpawnEntityPacket, packetId: int, doubleBits: real -> int)
    ensures Parse(Serialize(p, packetId, doubleBits)) == Some(Expected(p, packetId, doubleBits))
  {
    var tail := AngleBytes(p) + VarInt(p.data) + VelocityTail(p);
    var coords := CoordinateBytes(p, doubleBits) + tail;
    var head := WriteByte(packetId) + VarInt(p.entityId) + UuidBytes(p.uuid) + VarInt(p.typeId);
    SerializeSplits(p, packetId, doubleBits);
    HeadRoundTrip(p, packetId, coords);
    assert coords == BigEndian(doubleBits(p.x), 8) + BigEndian(doubleBits(p.y), 8) + BigEndian(doubleBits(p.z), 8) + tail;
    TripleRoundTrip(doubleBits(p.x), doubleBits(p.y), doubleBits(p.z), 8, tail);
    TailRoundTrip(p);
  }

  lemma SerializeSplits(p: SpawnEntityPacket, packetId: int, doubleBits: real -> int)
    ensures Serialize(p, packetId, doubleBits)
         == (WriteByte(packetId) + VarInt(p.entityId) + UuidBytes(p.uuid) + VarInt(p.typeId))
            + (CoordinateBytes(p, doubleBits) + (AngleBytes(p) + VarInt(p.data) + VelocityTail(p)))
  {
  }


  // ---------------------------------------------------------------------------
  // The wrap-around of the angle and velocity fields.

  /** Angles wrap and are never clamped: half a turn is step 128, which the
      signed byte reads as -128; a quarter turn backwards is step -64, written
      as 0xC0; a full turn is step 256, written as 0. */
  lemma AngleExamples()
    ensures AngleByte(0.0) == 0
    ensures AngleByte(180.0) == 0x80 && ToSigned(AngleByte(180.0), 1) == -128
    ensures AngleByte(-90.0) == 0xC0 && ToSigned(AngleByte(-90.0), 1) == -64
    ensures AngleByte(360.0) == 0
    ensures AngleByte(450.0) == AngleByte(90.0)
  {
    assert AngleStep(180.0) == 128 && AngleStep(-90.0) == -64;
    assert AngleStep(360.0) == 256 && AngleStep(450.0) == 320 && AngleStep(90.0) == 64;
  }

  /** For non-negative angles below the saturation point of the int cast,
      turning a whole turn further writes the same byte. */
  lemma AngleByteWholeTurn(deg: real)
    requires 0.0 <= deg && (deg + 360.0) * 256.0 / 360.0 < 0x7FFF_FFFF as real
    ensures AngleByte(deg + 360.0) == AngleByte(deg)
  {
    var r := deg * 256.0 / 360.0;
    assert (deg + 360.0) * 256.0 / 360.0 == r + 256.0;
    assert (r + 256.0).Floor == r.Floor + 256;
    assert AngleStep(deg + 360.0) == AngleStep(deg) + 256;
  }

  /** Truncation toward zero breaks that periodicity just below zero: -0.5
      degrees truncates to step 0, but 359.5 degrees to step 255. */
  lemma AngleByteNotPeriodicBelowZero()
    ensures AngleByte(-0.5) == 0 && AngleByte(359.5) == 255
  {
  }

}

=== FILE: tab_complete.dfy ===
/** The command-suggestion packet (`PacketPlayOutTabComplete`) and its
    matches, each with an optional tooltip announced by a presence flag. */
module TabComplete {
  import opened Wrappers
  import opened Wire

  /** One suggestion: its text and, optionally, a tooltip component. */
  datatype TabCompleteMatch = TabCompleteMatch(text: string, tooltip: Option<Component>)

  /** The one-argument constructor: a suggestion without a tooltip. */
  function NewMatch(text: string): (m: TabCompleteMatch)
    ensures m.text == text && m.tooltip.None?
  {
    TabCompleteMatch(text, None)
  }

  /** The two-argument constructor, `Optional.ofNullable(tooltip)`: a Java
      null tooltip is `None` here and gives no tooltip. */
  function NewMatchWithTooltip(text: string, tooltip: Option<Component>): (m: TabCompleteMatch)
    ensures m.text == text
    ensures m.tooltip == tooltip
    ensures m.tooltip.Some? <==> tooltip.Some?
  {
    TabCompleteMatch(text, tooltip)
  }

  /** Both constructors agree when the tooltip is null. */
  lemma NullTooltipIsNoTooltip(text: string)
    ensures NewMatchWithTooltip(text, None) == NewMatch(text)
  {
  }

  datatype TabCompletePacket = TabCompletePacket(id: Int32, start: Int32, length: Int32,
                                                 matches: seq<TabCompleteMatch>)

  /** One match on the wire: the text as a string, then a boolean flag, then
      the tooltip component if and only if the flag is 1. */
  function MatchBytes(m: TabCompleteMatch): (r: seq<Byte>)
    ensures |r| > |WriteString(m.text)| && r[..|WriteString(m.text)|] == WriteString(m.text)
    ensures r[|WriteString(m.text)|] == 1 <==> m.tooltip.Some?
    ensures r[|WriteString(m.text)|] == 0 <==> m.tooltip.None?
    ensures m.tooltip.Some? ==> r[|WriteString(m.text)| + 1..] == m.tooltip.value.encoded
    ensures m.tooltip.None? ==> |r| == |WriteString(m.text)| + 1
  {
    var text := WriteString(m.text);
    match m.tooltip
    case Some(c) => text + WriteBoolean(true) + ComponentBytes(c)
    case None => text + WriteBoolean(false)
  }

  /** The matches one after another, in array order. */
  function MatchesBytes(ms: seq<TabCompleteMatch>): seq<Byte>
  {
    if |ms| == 0 then [] else MatchBytes(ms[0]) + MatchesBytes(ms[1..])
  }

  function Header(p: TabCompletePacket, packetId: int): seq<Byte>
  {
    WriteByte(packetId) + VarInt(p.id) + VarInt(p.start) + VarInt(p.length) + VarInt(|p.matches|)
  }

  /** `serializePacket`: id byte, VarInt id, start, length and match count,
      then the matches. */
  function Serialize(p: TabCompletePacket, packetId: int): (r: seq<Byte>)
    ensures |r| >= |Header(p, packetId)| && r[..|Header(p, packetId)|] == Header(p, packetId)
    ensures |p.matches| == 0 ==> r == Header(p, packetId)
  {
    Header(p, packetId) + MatchesBytes(p.matches)
  }

  // ---------------------------------------------------------------------------
  // Reading the packet back.

  datatype TabCompleteWire = TabCompleteWire(packetId: Byte, id: Int32, start: Int32, length: Int32,
                                             matches: seq<TabCompleteMatch>)

  /** One match: a string, then `readBoolean` (any non-zero byte is true),
      then a component when the flag is set. */
  function ParseMatch(bs: seq<Byte>, read: ComponentReader): Option<(TabCompleteMatch, seq<Byte>)>
  {
    var s :- ParseString(bs);
    if |s.1| == 0 then None
    else if s.1[0] != 0 then
      var c :- read(s.1[1..]);
      Some((TabCompleteMatch(s.0, Some(c.0)), c.1))
    else Some((TabCompleteMatch(s.0, None), s.1[1..]))
  }

  /** Exactly `count` matches. */
  function ParseMatches(bs: seq<Byte>, count: nat, read: ComponentReader): Option<(seq<TabCompleteMatch>, seq<Byte>)>
    decreases count
  {
    if count == 0 then Some(([], bs))
    else
      var m :- ParseMatch(bs, read);
      var ms :- ParseMatches(m.1, count - 1, read);
      Some(([m.0] + ms.0, ms.1))
  }

  /** Reads a whole packet; the count must be non-negative and the matches
      must end the input. */
  function Parse(bs: seq<Byte>, read: ComponentReader): Option<TabCompleteWire>
  {
    if |bs| == 0 then None
    else
      var h :- ParseHeader(bs[1..]);
      var (id, start, length, count) := h.0;
      if count < 0 then None
      else
        var ms :- ParseMatches(h.1, count, read);
        if |ms.1| != 0 then None
        else Some(TabCompleteWire(bs[0], id, start, length, ms.0))
  }

  /** A match a reader can take back: its text fits a Java byte array and
      the reader recognises its tooltip. */
  ghost predicate Readable(m: TabCompleteMatch, read: ComponentReader)
  {
    && |Utf8(m.text)| < 0x8000_0000
    && (m.tooltip.Some? ==> Reads(read, m.tooltip.value))
  }

  lemma MatchRoundTrip(m: TabCompleteMatch, read: ComponentReader, rest: seq<Byte>)
    requires Readable(m, read)
    ensures ParseMatch(MatchBytes(m) + rest, read) == Some((m, rest))
  {
    var text := WriteString(m.text);
    match m.tooltip
    case Some(c) =>
      assert MatchBytes(m) + rest == text + ([1] + (c.encoded + rest));
      StringRoundTrip(m.text, [1] + (c.encoded + rest));
      assert ([1] + (c.encoded + rest))[1..] == c.encoded + rest;
      assert ReadsBefore(read, c, rest);
    case None =>
      assert MatchBytes(m) + rest == text + ([0] + rest);
      StringRoundTrip(m.text, [0] + rest);
      assert ([0] + rest)[1..] == rest;
  }

  /** One more match read in front of the others. */
  lemma ParseMatchesStep(bs: seq<Byte>, count: nat, read: ComponentReader, m: TabCompleteMatch,
                         after: seq<Byte>, ms: seq<TabCompleteMatch>, rest: seq<Byte>)
    requires count > 0 && ParseMatch(bs, read) == Some((m, after))
    requires ParseMatches(after, count - 1, read) == Some((ms, rest))
    ensures ParseMatches(bs, count, read) == Some(([m] + ms, rest))
  {
  }

  lemma {:induction false} MatchesRoundTrip(ms: seq<TabCompleteMatch>, read: ComponentReader, rest: seq<Byte>)
    requires forall i :: 0 <= i < |ms| ==> Readable(ms[i], read)
    ensures ParseMatches(MatchesBytes(ms) + rest, |ms|, read) == Some((ms, rest))
  {
    if |ms| > 0 {
      var head, others := MatchBytes(ms[0]), MatchesBytes(ms[1..]);
      assert MatchesBytes(ms) == head + others;
      Regroup3(head, others, rest);
      MatchRoundTrip(ms[0], read, others + rest);
      MatchesRoundTrip(ms[1..], read, rest);
      ParseMatchesStep(MatchesBytes(ms) + rest, |ms|, read, ms[0], others + rest, ms[1..], rest);
      assert [ms[0]] + ms[1..] == ms;
    } else {
      assert MatchesBytes(ms) + rest == rest;
    }
  }

  /** The four header VarInts. */
  function ParseHeader(bs: seq<Byte>): Option<((Int32, Int32, Int32, Int32), seq<Byte>)>
  {
    var i :- ParseVarInt(bs);
    var s :- ParseVarInt(i.1);
    var l :- ParseVarInt(s.1);
    var n :- ParseVarInt(l.1);
    Some(((i.0, s.0, l.0, n.0), n.1))
  }

  lemma HeaderRoundTrip(a: Int32, b: Int32, c: Int32, d: Int32, rest: seq<Byte>)
    ensures ParseHeader(VarInt(a) + VarInt(b) + VarInt(c) + VarInt(d) + rest) == Some(((a, b, c, d), rest))
  {
    var dB := VarInt(d) + rest;
    var cB := VarInt(c) + dB;
    var bB := VarInt(b) + cB;
    assert VarInt(a) + VarInt(b) + VarInt(c) + VarInt(d) + rest == VarInt(a) + bB;
    VarIntRoundTrip(a, bB);
    VarIntRoundTrip(b, cB);
    VarIntRoundTrip(c, dB);
    VarIntRoundTrip(d, rest);
  }

  lemma ParseOfParts(bs: seq<Byte>, read: ComponentReader, a: Int32, b: Int32, c: Int32, n: Int32,
                     body: seq<Byte>, ms: seq<TabCompleteMatch>)
    requires |bs| > 0 && ParseHeader(bs[1..]) == Some(((a, b, c, n), body))
    requires n >= 0 && ParseMatches(body, n, read) == Some((ms, []))
    ensures Parse(bs, read) == Some(TabCompleteWire(bs[0], a, b, c, ms))
  {
  }

  lemma SerializeShape(p: TabCompletePacket, packetId: int)
    ensures var fields := VarInt(p.id) + VarInt(p.start) + VarInt(p.length) + VarInt(|p.matches|)
                          + MatchesBytes(p.matches);
            |Serialize(p, packetId)| > 0
            && Serialize(p, packetId)[0] == packetId % 256
            && Serialize(p, packetId)[1..] == fields
  {
    var id := WriteByte(packetId);
    var counts := VarInt(p.id) + VarInt(p.start) + VarInt(p.length) + VarInt(|p.matches|);
    var body := MatchesBytes(p.matches);
    DetachFirst(id, VarInt(p.id), VarInt(p.start), VarInt(p.length), VarInt(|p.matches|));
    Regroup3(id, counts, body);
    SplitAt(id, counts + body);
  }

  /** A packet whose match count fits a Java int, and whose matches can be
      read, is read back whole: header fields, then exactly `|matches|`
      matches in array order, each with its tooltip when it has one. */
  lemma ParseSerialize(p: TabCompletePacket, packetId: int, read: ComponentReader)
    requires |p.matches| < 0x8000_0000
    requires forall i :: 0 <= i < |p.matches| ==> Readable(p.matches[i], read)
    ensures Parse(Serialize(p, packetId), read)
         == Some(TabCompleteWire(packetId % 256, p.id, p.start, p.length, p.matches))
  {
    var body := MatchesBytes(p.matches);
    SerializeShape(p, packetId);
    HeaderRoundTrip(p.id, p.start, p.length, |p.matches|, body);
    MatchesRoundTrip(p.matches, read, []);
    assert body + [] == body;
    ParseOfParts(Serialize(p, packetId), read, p.id, p.start, p.length, |p.matches|, body, p.matches);
  }



}

=== FILE: view.dfy ===
/** The per-player view synchroniser (`PlayerInteractManager`).

    Once per tick, `update` compares the entities and chunk positions in
    range of the player with those it stored on the previous tick and emits
    the packets that bring the client up to date: spawns and metadata for
    arriving entities, a destroy per departed entity, unloads for chunks that
    left the window, then a chunk batch with the chunks that entered it.

    The mutable world and player are read through one snapshot per call
    (`PlayerSnapshot`); `sendPacket` becomes the returned packet sequence.
    The iteration order of Java's hash sets and maps is unspecified, so the
    model enumerates each set in an order it does not pin down
    (`Enumerate`), and only the order between groups of packets is stated. */
module PlayerView {
  import opened Wrappers
  import opened Wire
  import opened SpawnEntity

  type EntityId = Int32

  /** The player's identity; the manager only stores who it belongs to. */
  type PlayerId = Uuid

  /** The connection state; only `Play` matters to the synchroniser. */
  datatype ClientState = Play | Other(name: string)

  /** What the synchroniser reads from an entity besides its id. */
  datatype EntityState = EntityState(uuid: Uuid, typeId: Int32, location: Location)

  /** A region-file chunk, kept opaque. */
  datatype ChunkData = ChunkData(payload: seq<Byte>)

  /** The value stored per viewed position: a chunk, or the shared
      `World.EMPTY_CHUNK` sentinel where the world has none. */
  datatype ChunkValue = Loaded(chunk: ChunkData) | EmptyChunk

  /** A light bitmask list (`List<Byte[]>`), kept opaque. */
  type LightMask = seq<seq<Byte>>

  /** A world as the synchroniser sees it during one call.  A coordinate pair
      missing from `chunks` is a chunk `getChunkAt` returns null for; one
      missing from a light map is a null bitmask list.

      This is a second view of Java's `World`, beside `Respawn.World`: the
      respawn packet needs only the name and the environment, looked up in
      the dimension registry, while the synchroniser reads entities, chunks
      and light and only copies the environment into chunk packets, so here
      the environment is just its key. */
  datatype WorldSnapshot = WorldSnapshot(
    name: string,
    environment: string,
    hasSkyLight: bool,
    entities: map<EntityId, EntityState>,
    chunks: map<(int, int), ChunkData>,
    blockLight: map<(int, int), LightMask>,
    skyLight: map<(int, int), LightMask>)

  /** The player's connection state, location and world at the call. */
  datatype PlayerSnapshot = PlayerSnapshot(state: ClientState, location: Location, world: WorldSnapshot)

  /** A chunk position; two positions are equal when world and coordinates
      agree. */
  datatype ChunkPosition = ChunkPosition(world: string, x: int, z: int)

  datatype Packet =
    | Spawn(spawn: SpawnEntityPacket)
    | Metadata(entityId: EntityId)
    | Destroy(entityId: EntityId)
    | Unload(chunkX: int, chunkZ: int)
    | BatchStart
    | LevelChunk(chunkX: int, chunkZ: int, chunk: ChunkValue, environment: string,
                 skyLight: LightMask, blockLight: LightMask)
    | BatchFinished(count: Int32)

  predicate IsEntityPacket(p: Packet)
  {
    p.Spawn? || p.Metadata? || p.Destroy?
  }

  predicate IsChunkPacket(p: Packet)
  {
    p.Unload? || p.BatchStart? || p.LevelChunk? || p.BatchFinished?
  }

  /** The manager's state: the player it belongs to (set once), the entities
      the client was last told about, and the chunk window it was last sent. */
  datatype Manager = Manager(player: Option<PlayerId>, entities: set<EntityId>,
                             viewing: map<ChunkPosition, ChunkValue>)

  /** The constructor: no player, nothing known to the client. */
  function NewManager(): (m: Manager)
    ensures m.player.None? && m.entities == {} && m.viewing == map[]
  {
    Manager(None, {}, map[])
  }

  /** `setPlayer`: succeeds only while no player is set; `None` is the
      exception the source throws otherwise.  Nothing but the player
      changes. */
  function SetPlayer(m: Manager, player: PlayerId): (r: Option<Manager>)
    ensures r.Some? <==> m.player.None?
    ensures r.Some? ==> r.value.player == Some(player)
    ensures r.Some? ==> r.value.entities == m.entities && r.value.viewing == m.viewing
  {
    if m.player.None? then Some(m.(player := Some(player))) else None
  }

  // ---------------------------------------------------------------------------
  // Entities in range.

  function DistanceSquared(a: Location, b: Location): (d: real)
    ensures d >= 0.0
  {
    var dx, dy, dz := a.x - b.x, a.y - b.y, a.z - b.z;
    dx * dx + dy * dy + dz * dz
  }

  /** `viewDistanceBlocks * viewDistanceBlocks` with `viewDistanceBlocks =
      viewDistanceChunks << 4`; both the shift and the product wrap as Java
      ints do. */
  function RangeBound(viewDistance: Int32): (r: Int32)
    ensures 0 <= viewDistance <= 2896 ==> r == (16 * viewDistance) * (16 * viewDistance)
  {
    var blocks := ToInt32(viewDistance * 16);
    if 0 <= viewDistance <= 2896 then
      ToInt32Identity(viewDistance * 16);
      MulBelow(blocks, 46336, blocks);
      MulBelow(blocks, 46336, 46336);
      ToInt32Identity(blocks * blocks);
      ToInt32(blocks * blocks)
    else
      ToInt32(blocks * blocks)
  }

  predicate InRange(e: EntityState, at: Location, viewDistance: Int32)
  {
    DistanceSquared(e.location, at) < RangeBound(viewDistance) as real
  }

  function EntitiesInRange(w: WorldSnapshot, at: Location, viewDistance: Int32): (r: set<EntityId>)
    ensures r <= w.entities.Keys
  {
    set id | id in w.entities && InRange(w.entities[id], at, viewDistance)
  }

  // ---------------------------------------------------------------------------
  // The chunk window.

  /** `(int) coord >> 4`: the arithmetic shift is division rounding down,
      which is what `/` does for a positive divisor. */
  function ChunkCoordinate(coord: real): (c: int)
    ensures 16 * c <= DoubleToInt(coord) < 16 * c + 16
    ensures -0x800_0000 <= c < 0x800_0000
  {
    DoubleToInt(coord) / 16
  }

  /** The positions of `world` with `x0 <= x < x1` and `z0 <= z < z1`. */
  function Rect(world: string, x0: int, x1: int, z0: int, z1: int): set<ChunkPosition>
  {
    set x, z | x0 <= x < x1 && z0 <= z < z1 :: ChunkPosition(world, x, z)
  }

  /** The nested loops' positions: `[cx - vd, cx + vd)` by `[cz - vd, cz + vd)`. */
  function WindowPositions(world: string, cx: int, cz: int, viewDistance: int): set<ChunkPosition>
  {
    Rect(world, cx - viewDistance, cx + viewDistance, cz - viewDistance, cz + viewDistance)
  }

  /** What the window stores at a position: the world's chunk, or the empty
      sentinel where `getChunkAt` returns null. */
  function ChunkAt(w: WorldSnapshot, x: int, z: int): (c: ChunkValue)
    ensures c.EmptyChunk? <==> (x, z) !in w.chunks
    ensures (x, z) in w.chunks ==> c == Loaded(w.chunks[(x, z)])
  {
    if (x, z) in w.chunks then Loaded(w.chunks[(x, z)]) else EmptyChunk
  }

  /** `chunksInRange`. */
  function Window(w: WorldSnapshot, at: Location, viewDistance: Int32): (r: map<ChunkPosition, ChunkValue>)
    ensures forall p :: p in r <==> p.world == w.name
                                    && ChunkCoordinate(at.x) - viewDistance <= p.x < ChunkCoordinate(at.x) + viewDistance
                                    && ChunkCoordinate(at.z) - viewDistance <= p.z < ChunkCoordinate(at.z) + viewDistance
    ensures forall p :: p in r ==> r[p] == ChunkAt(w, p.x, p.z)
  {
    var positions := WindowPositions(w.name, ChunkCoordinate(at.x), ChunkCoordinate(at.z), viewDistance);
    map p | p in positions :: ChunkAt(w, p.x, p.z)
  }

  /** The chunk-data packet for a position entering the window.  Without a
      chunk it carries the sentinel and no light; with one it carries the
      block light (none if the list is null) and the sky light (none if the
      world has no sky light or the list is null). */
  function ChunkPacket(w: WorldSnapshot, p: ChunkPosition): (r: Packet)
    ensures r.LevelChunk? && r.chunkX == p.x && r.chunkZ == p.z && r.environment == w.environment
    ensures r.chunk == ChunkAt(w, p.x, p.z)
    ensures r.chunk.EmptyChunk? ==> r.skyLight == [] && r.blockLight == []
    ensures !w.hasSkyLight ==> r.skyLight == []
    ensures r.chunk.Loaded? ==> r.blockLight == (if (p.x, p.z) in w.blockLight then w.blockLight[(p.x, p.z)] else [])
    ensures r.chunk.Loaded? && w.hasSkyLight
            ==> r.skyLight == (if (p.x, p.z) in w.skyLight then w.skyLight[(p.x, p.z)] else [])
  {
    if (p.x, p.z) !in w.chunks then
      LevelChunk(p.x, p.z, EmptyChunk, w.environment, [], [])
    else
      var blockLight := if (p.x, p.z) in w.blockLight then w.blockLight[(p.x, p.z)] else [];
      var skyLight := if w.hasSkyLight && (p.x, p.z) in w.skyLight then w.skyLight[(p.x, p.z)] else [];
      LevelChunk(p.x, p.z, Loaded(w.chunks[(p.x, p.z)]), w.environment, skyLight, blockLight)
  }

  // ---------------------------------------------------------------------------
  // The update.

  predicate Distinct<T(==)>(s: seq<T>)
  {
    forall i, j :: 0 <= i < |s| && 0 <= j < |s| && i != j ==> s[i] != s[j]
  }

  /** Some order of the elements of `s`, each exactly once: the iteration
      order of a Java hash set, which the model leaves unspecified. */
  ghost function Enumerate<T(!new)>(s: set<T>): (r: seq<T>)
    ensures |r| == |s|
    ensures forall x :: x in r <==> x in s
    ensures Distinct(r)
    decreases |s|
  {
    if s == {} then []
    else
      var x :| x in s;
      [x] + Enumerate(s - {x})
  }

  lemma EnumerateWithin<T(!new)>(s: set<T>, t: set<T>)
    requires s <= t
    ensures forall k :: 0 <= k < |Enumerate(s)| ==> Enumerate(s)[k] in t
  {
    var r := Enumerate(s);
    forall k | 0 <= k < |r|
      ensures r[k] in t
    {
      assert r[k] in s;
    }
  }

  /** The spawn packet the update builds for an arriving entity: the 13-argument
      constructor given the entity's yaw as pitch and its pitch as both yaw and
      head yaw, data 0 and no velocity. */
  function SpawnFor(id: EntityId, e: EntityState): (p: SpawnEntityPacket)
    ensures p.entityId == id && p.uuid == e.uuid && p.typeId == e.typeId
    ensures p.x == e.location.x && p.y == e.location.y && p.z == e.location.z
    ensures p.pitch == e.location.yaw && p.yaw == e.location.pitch && p.headYaw == e.location.pitch
    ensures p.data == 0 && p.velocityX == 0 && p.velocityY == 0 && p.velocityZ == 0
  {
    SpawnEntityPacket(id, e.uuid, e.typeId, e.location.x, e.location.y, e.location.z,
                      e.location.yaw, e.location.pitch, e.location.pitch, 0, 0, 0, 0)
  }

  /** Spawn and metadata for each arriving entity, then a destroy for each
      departed one. */
  function EntityPackets(spawned: seq<EntityId>, departed: seq<EntityId>, w: WorldSnapshot): (r: seq<Packet>)
    requires forall k :: 0 <= k < |spawned| ==> spawned[k] in w.entities
    ensures |r| == 2 * |spawned| + |departed|
  {
    seq(2 * |spawned|, i requires 0 <= i < 2 * |spawned| =>
          if i % 2 == 0 then Spawn(SpawnFor(spawned[i / 2], w.entities[spawned[i / 2]]))
          else Metadata(spawned[i / 2]))
    + seq(|departed|, i requires 0 <= i < |departed| => Destroy(departed[i]))
  }

  /** Unloads for the positions that left, the batch start, chunk data for
      the positions that entered, and the batch end with their number (a
      Java int counter). */
  function ChunkPackets(unloaded: seq<ChunkPosition>, entering: seq<ChunkPosition>, w: WorldSnapshot): (r: seq<Packet>)
    ensures |r| == |unloaded| + |entering| + 2
  {
    seq(|unloaded|, i requires 0 <= i < |unloaded| => Unload(unloaded[i].x, unloaded[i].z))
    + [BatchStart]
    + seq(|entering|, i requires 0 <= i < |entering| => ChunkPacket(w, entering[i]))
    + [BatchFinished(ToInt32(|entering|))]
  }

  /** The sets an update computes, each enumerated once. */
  datatype Plan = Plan(inRange: set<EntityId>, window: map<ChunkPosition, ChunkValue>,
                       spawned: seq<EntityId>, departed: seq<EntityId>,
                       unloaded: seq<ChunkPosition>, entering: seq<ChunkPosition>)

  ghost function PlanOf(m: Manager, now: PlayerSnapshot, viewDistance: Int32): (plan: Plan)
    ensures plan.inRange <= now.world.entities.Keys
    ensures forall k :: 0 <= k < |plan.spawned| ==> plan.spawned[k] in now.world.entities
  {
    var inRange := EntitiesInRange(now.world, now.location, viewDistance);
    var window := Window(now.world, now.location, viewDistance);
    var spawned := Enumerate(inRange - m.entities);
    EnumerateWithin(inRange - m.entities, now.world.entities.Keys);
    Plan(inRange, window,
         spawned, Enumerate(m.entities - inRange),
         Enumerate(m.viewing.Keys - window.Keys), Enumerate(window.Keys - m.viewing.Keys))
  }

  /** Carrying out a plan: the manager keeps the new range and window, and
      the packets are the entity phase followed by the chunk phase. */
  function Step(m: Manager, plan: Plan, w: WorldSnapshot): (Manager, seq<Packet>)
    requires forall k :: 0 <= k < |plan.spawned| ==> plan.spawned[k] in w.entities
  {
    (Manager(m.player, plan.inRange, plan.window),
     EntityPackets(plan.spawned, plan.departed, w) + ChunkPackets(plan.unloaded, plan.entering, w))
  }

  /** `update`: the manager afterwards and the packets sent, in order.  The
      player must have been set (the source dereferences it).  Outside PLAY
      state nothing is sent and nothing changes; in PLAY state at least the
      chunk batch's start and end are sent. */
  ghost function Update(m: Manager, now: PlayerSnapshot, viewDistance: Int32): (r: (Manager, seq<Packet>))
    requires m.player.Some?
    ensures r.0.player == m.player
    ensures now.state != Play ==> r.0 == m
    ensures r.1 == [] <==> now.state != Play
  {
    if now.state != Play then (m, [])
    else Step(m, PlanOf(m, now, viewDistance), now.world)
  }

}

=== FILE: view_lemmas.dfy ===
/** What one call of the view synchroniser does: which packets it sends, how
    often, in which order, and what it stores for the next call.

    The facts are first proved about the two phases on their own (the entity
    packets and the chunk packets, for any enumeration of the sets), then
    carried over to `Update`. */
module PlayerViewLemmas {
  import opened Wire
  import opened SpawnEntity
  import opened PlayerView

  /** `p` is sent exactly once. */
  predicate OccursOnce(ps: seq<Packet>, p: Packet)
  {
    && (exists i :: 0 <= i < |ps| && ps[i] == p)
    && (forall i, j :: 0 <= i < |ps| && 0 <= j < |ps| && ps[i] == p && ps[j] == p ==> i == j)
  }

  /** `p` is never sent. */
  predicate Absent(ps: seq<Packet>, p: Packet)
  {
    forall i :: 0 <= i < |ps| ==> ps[i] != p
  }

  predicate AllEntityPackets(ps: seq<Packet>)
  {
    forall i :: 0 <= i < |ps| ==> IsEntityPacket(ps[i])
  }

  predicate AllChunkPackets(ps: seq<Packet>)
  {
    forall i :: 0 <= i < |ps| ==> IsChunkPacket(ps[i])
  }

  predicate InWorld(ids: seq<EntityId>, w: WorldSnapshot)
  {
    forall k :: 0 <= k < |ids| ==> ids[k] in w.entities
  }

  // ---------------------------------------------------------------------------
  // Sending once, across a concatenation.

  lemma OnceInFirst(a: seq<Packet>, c: seq<Packet>, p: Packet)
    requires OccursOnce(a, p) && Absent(c, p)
    ensures OccursOnce(a + c, p)
  {
    var i :| 0 <= i < |a| && a[i] == p;
    assert (a + c)[i] == p;
  }

  lemma OnceInSecond(a: seq<Packet>, c: seq<Packet>, p: Packet)
    requires Absent(a, p) && OccursOnce(c, p)
    ensures OccursOnce(a + c, p)
  {
    var i :| 0 <= i < |c| && c[i] == p;
    assert (a + c)[|a| + i] == p;
  }

  lemma AtSecond(a: seq<Packet>, c: seq<Packet>, k: int)
    requires 0 <= k < |c|
    ensures (a + c)[|a| + k] == c[k]
  {
  }

  lemma AbsentInBoth(a: seq<Packet>, c: seq<Packet>, p: Packet)
    requires Absent(a, p) && Absent(c, p)
    ensures Absent(a + c, p)
  {
  }

  // ---------------------------------------------------------------------------
  // The entity phase.

  lemma EntityPacketAt(spawned: seq<EntityId>, departed: seq<EntityId>, w: WorldSnapshot, i: int)
    requires InWorld(spawned, w)
    requires 0 <= i < 2 * |spawned| + |departed|
    ensures var p := EntityPackets(spawned, departed, w)[i];
            && (i < 2 * |spawned| && i % 2 == 0 ==> p == Spawn(SpawnFor(spawned[i / 2], w.entities[spawned[i / 2]])))
            && (i < 2 * |spawned| && i % 2 == 1 ==> p == Metadata(spawned[i / 2]))
            && (2 * |spawned| <= i ==> p == Destroy(departed[i - 2 * |spawned|]))
  {
  }

  lemma EntityPhaseKinds(spawned: seq<EntityId>, departed: seq<EntityId>, w: WorldSnapshot)
    requires InWorld(spawned, w)
    ensures AllEntityPackets(EntityPackets(spawned, departed, w))
  {
    var e := EntityPackets(spawned, departed, w);
    forall i | 0 <= i < |e|
      ensures IsEntityPacket(e[i])
    {
      EntityPacketAt(spawned, departed, w, i);
    }
  }

  /** A spawn packet of the entity phase sits at an even index of its first
      part and is followed by the metadata of the same entity. */
  lemma SpawnAt(spawned: seq<EntityId>, departed: seq<EntityId>, w: WorldSnapshot, i: int)
    requires InWorld(spawned, w)
    requires 0 <= i < |EntityPackets(spawned, departed, w)| && EntityPackets(spawned, departed, w)[i].Spawn?
    ensures i % 2 == 0 && i + 1 < 2 * |spawned|
    ensures EntityPackets(spawned, departed, w)[i] == Spawn(SpawnFor(spawned[i / 2], w.entities[spawned[i / 2]]))
    ensures EntityPackets(spawned, departed, w)[i + 1] == Metadata(spawned[i / 2])
  {
    EntityPacketAt(spawned, departed, w, i);
    EntityPacketAt(spawned, departed, w, i + 1);
  }

  lemma MetadataAt(spawned: seq<EntityId>, departed: seq<EntityId>, w: WorldSnapshot, i: int)
    requires InWorld(spawned, w)
    requires 0 <= i < |EntityPackets(spawned, departed, w)| && EntityPackets(spawned, departed, w)[i].Metadata?
    ensures i % 2 == 1 && i < 2 * |spawned|
    ensures EntityPackets(spawned, departed, w)[i] == Metadata(spawned[i / 2])
  {
    EntityPacketAt(spawned, departed, w, i);
  }

  lemma DestroyAt(spawned: seq<EntityId>, departed: seq<EntityId>, w: WorldSnapshot, i: int)
    requires InWorld(spawned, w)
    requires 0 <= i < |EntityPackets(spawned, departed, w)| && EntityPackets(spawned, departed, w)[i].Destroy?
    ensures 2 * |spawned| <= i
    ensures EntityPackets(spawned, departed, w)[i] == Destroy(departed[i - 2 * |spawned|])
  {
    EntityPacketAt(spawned, departed, w, i);
  }

  /** In the entity phase, each listed arrival gets one spawn and one
      metadata packet, and nothing else does. */
  lemma SpawnedOnceInPhase(spawned: seq<EntityId>, departed: seq<EntityId>, w: WorldSnapshot, id: EntityId)
    requires InWorld(spawned, w) && Distinct(spawned)
    ensures var e := EntityPackets(spawned, departed, w);
            && (id in spawned ==> id in w.entities
                                  && OccursOnce(e, Spawn(SpawnFor(id, w.entities[id])))
                                  && OccursOnce(e, Metadata(id)))
            && (id !in spawned ==> Absent(e, Metadata(id))
                                   && forall i :: 0 <= i < |e| && e[i].Spawn? ==> e[i].spawn.entityId != id)
  {
    var e := EntityPackets(spawned, departed, w);
    forall i | 0 <= i < |e| && e[i].Spawn?
      ensures i % 2 == 0 && i < 2 * |spawned| && e[i].spawn.entityId == spawned[i / 2]
    {
      SpawnAt(spawned, departed, w, i);
    }
    forall i | 0 <= i < |e| && e[i].Metadata?
      ensures i % 2 == 1 && i < 2 * |spawned| && e[i].entityId == spawned[i / 2]
    {
      MetadataAt(spawned, departed, w, i);
    }
    if id in spawned {
      var k :| 0 <= k < |spawned| && spawned[k] == id;
      EntityPacketAt(spawned, departed, w, 2 * k);
      EntityPacketAt(spawned, departed, w, 2 * k + 1);
      assert e[2 * k] == Spawn(SpawnFor(id, w.entities[id]));
      assert e[2 * k + 1] == Metadata(id);
    }
  }

  /** In the entity phase, each listed departure gets one destroy packet, and
      nothing else does. */
  lemma DestroyedOnceInPhase(spawned: seq<EntityId>, departed: seq<EntityId>, w: WorldSnapshot, id: EntityId)
    requires InWorld(spawned, w) && Distinct(departed)
    ensures var e := EntityPackets(spawned, departed, w);
            && (id in departed ==> OccursOnce(e, Destroy(id)))
            && (id !in departed ==> Absent(e, Destroy(id)))
  {
    var e := EntityPackets(spawned, departed, w);
    forall i | 0 <= i < |e| && e[i].Destroy?
      ensures 2 * |spawned| <= i && e[i].entityId == departed[i - 2 * |spawned|]
    {
      DestroyAt(spawned, departed, w, i);
    }
    if id in departed {
      var k :| 0 <= k < |departed| && departed[k] == id;
      EntityPacketAt(spawned, departed, w, 2 * |spawned| + k);
      assert e[2 * |spawned| + k] == Destroy(id);
    }
  }

  // ---------------------------------------------------------------------------
  // The chunk phase.

  lemma ChunkPacketAt(unloaded: seq<ChunkPosition>, entering: seq<ChunkPosition>, w: WorldSnapshot, i: int)
    requires 0 <= i < |unloaded| + |entering| + 2
    ensures var p := ChunkPackets(unloaded, entering, w)[i];
            && (i < |unloaded| ==> p == Unload(unloaded[i].x, unloaded[i].z))
            && (i == |unloaded| ==> p == BatchStart)
            && (|unloaded| < i < |unloaded| + |entering| + 1 ==> p == ChunkPacket(w, entering[i - |unloaded| - 1]))
            && (i == |unloaded| + |entering| + 1 ==> p == BatchFinished(ToInt32(|entering|)))
  {
    var c := ChunkPackets(unloaded, entering, w);
    var a := seq(|unloaded|, k requires 0 <= k < |unloaded| => Unload(unloaded[k].x, unloaded[k].z));
    var d := seq(|entering|, k requires 0 <= k < |entering| => ChunkPacket(w, entering[k]));
    assert c == a + [BatchStart] + d + [BatchFinished(ToInt32(|entering|))];
  }

  lemma ChunkPhaseKinds(unloaded: seq<ChunkPosition>, entering: seq<ChunkPosition>, w: WorldSnapshot)
    ensures AllChunkPackets(ChunkPackets(unloaded, entering, w))
  {
    var c := ChunkPackets(unloaded, entering, w);
    forall i | 0 <= i < |c|
      ensures IsChunkPacket(c[i])
    {
      ChunkPacketAt(unloaded, entering, w, i);
    }
  }

  /** In the chunk phase, a position listed as entering, among positions of
      one world, gets exactly one chunk-data packet. */
  lemma EnteringOnceInPhase(unloaded: seq<ChunkPosition>, entering: seq<ChunkPosition>, w: WorldSnapshot, p: ChunkPosition)
    requires Distinct(entering) && p in entering
    requires forall k :: 0 <= k < |entering| ==> entering[k].world == p.world
    ensures OccursOnce(ChunkPackets(unloaded, entering, w), ChunkPacket(w, p))
  {
    var c := ChunkPackets(unloaded, entering, w);
    var base := |unloaded| + 1;
    forall i | 0 <= i < |c| && c[i] == ChunkPacket(w, p)
      ensures base <= i < base + |entering| && entering[i - base] == p
    {
      ChunkPacketAt(unloaded, entering, w, i);
      var q := entering[i - base];
      assert q == ChunkPosition(q.world, q.x, q.z);
    }
    var k :| 0 <= k < |entering| && entering[k] == p;
    ChunkPacketAt(unloaded, entering, w, base + k);
    assert c[base + k] == ChunkPacket(w, p);
  }

  // ---------------------------------------------------------------------------
  // Carrying out a plan.

  /** What the entity half of a plan must satisfy: the arrivals and the
      departures, each enumerated once, and the arrivals in the world. */
  ghost predicate EntityPlan(m: Manager, plan: Plan, w: WorldSnapshot)
  {
    && InWorld(plan.spawned, w)
    && Distinct(plan.spawned) && Distinct(plan.departed)
    && (forall id :: id in plan.spawned <==> id in plan.inRange && id !in m.entities)
    && (forall id :: id in plan.departed <==> id in m.entities && id !in plan.inRange)
    && |plan.spawned| == |plan.inRange - m.entities|
    && |plan.departed| == |m.entities - plan.inRange|
  }

  /** What the chunk half of a plan must satisfy: the positions that left and
      those that entered the window, each enumerated once. */
  ghost predicate ChunkPlan(m: Manager, plan: Plan)
  {
    && Distinct(plan.unloaded) && Distinct(plan.entering)
    && (forall p :: p in plan.unloaded <==> p in m.viewing && p !in plan.window)
    && (forall p :: p in plan.entering <==> p in plan.window && p !in m.viewing)
    && |plan.unloaded| == |m.viewing.Keys - plan.window.Keys|
    && |plan.entering| == |plan.window.Keys - m.viewing.Keys|
  }

  lemma StepSpawnFollowedByMetadata(m: Manager, plan: Plan, w: WorldSnapshot, i: int)
    requires EntityPlan(m, plan, w)
    requires 0 <= i < |Step(m, plan, w).1| && Step(m, plan, w).1[i].Spawn?
    ensures var ps := Step(m, plan, w).1;
            var id := ps[i].spawn.entityId;
            && i + 1 < |ps| && ps[i + 1] == Metadata(id)
            && id in plan.inRange && id !in m.entities
            && id in w.entities && ps[i].spawn == SpawnFor(id, w.entities[id])
  {
    var e := EntityPackets(plan.spawned, plan.departed, w);
    ChunkPhaseKinds(plan.unloaded, plan.entering, w);
    assert i < |e|;
    SpawnAt(plan.spawned, plan.departed, w, i);
    assert plan.spawned[i / 2] in plan.spawned;
  }

  lemma StepArrivalSpawnedOnce(m: Manager, plan: Plan, w: WorldSnapshot, id: EntityId)
    requires EntityPlan(m, plan, w)
    ensures var ps := Step(m, plan, w).1;
            var arrived := id in plan.inRange && id !in m.entities;
            && (arrived ==> id in w.entities
                            && OccursOnce(ps, Spawn(SpawnFor(id, w.entities[id])))
                            && OccursOnce(ps, Metadata(id)))
            && (!arrived ==> Absent(ps, Metadata(id))
                             && forall i :: 0 <= i < |ps| && ps[i].Spawn? ==> ps[i].spawn.entityId != id)
  {
    var e := EntityPackets(plan.spawned, plan.departed, w);
    var c := ChunkPackets(plan.unloaded, plan.entering, w);
    ChunkPhaseKinds(plan.unloaded, plan.entering, w);
    SpawnedOnceInPhase(plan.spawned, plan.departed, w, id);
    if id in plan.spawned {
      OnceInFirst(e, c, Spawn(SpawnFor(id, w.entities[id])));
      OnceInFirst(e, c, Metadata(id));
    } else {
      AbsentInBoth(e, c, Metadata(id));
    }
  }

  lemma StepDepartedDestroyedOnce(m: Manager, plan: Plan, w: WorldSnapshot, id: EntityId)
    requires EntityPlan(m, plan, w)
    ensures var ps := Step(m, plan, w).1;
            var departed := id in m.entities && id !in plan.inRange;
            && (departed ==> OccursOnce(ps, Destroy(id)))
            && (!departed ==> Absent(ps, Destroy(id)))
  {
    var e := EntityPackets(plan.spawned, plan.departed, w);
    var c := ChunkPackets(plan.unloaded, plan.entering, w);
    ChunkPhaseKinds(plan.unloaded, plan.entering, w);
    DestroyedOnceInPhase(plan.spawned, plan.departed, w, id);
    if id in plan.departed {
      OnceInFirst(e, c, Destroy(id));
    } else {
      AbsentInBoth(e, c, Destroy(id));
    }
  }

  lemma StepEntityPacketsFirst(m: Manager, plan: Plan, w: WorldSnapshot)
    requires InWorld(plan.spawned, w)
    ensures var ps := Step(m, plan, w).1;
            forall i, j :: 0 <= i < |ps| && 0 <= j < |ps| && IsEntityPacket(ps[i]) && IsChunkPacket(ps[j]) ==> i < j
  {
    EntityPhaseKinds(plan.spawned, plan.departed, w);
    ChunkPhaseKinds(plan.unloaded, plan.entering, w);
  }

  /** The chunk phase on its own: unloads, the batch start, chunk data, and
      the batch end. */
  lemma ChunkPhaseLayout(unloaded: seq<ChunkPosition>, entering: seq<ChunkPosition>, w: WorldSnapshot)
    ensures var c := ChunkPackets(unloaded, entering, w);
            && (forall i :: 0 <= i < |unloaded| ==> c[i].Unload?)
            && c[|unloaded|] == BatchStart
            && (forall i :: |unloaded| < i < |c| - 1 ==> c[i].LevelChunk?)
            && c[|c| - 1] == BatchFinished(ToInt32(|entering|))
  {
    var c := ChunkPackets(unloaded, entering, w);
    forall i | 0 <= i < |c|
      ensures i < |unloaded| ==> c[i].Unload?
      ensures i == |unloaded| ==> c[i] == BatchStart
      ensures |unloaded| < i < |c| - 1 ==> c[i].LevelChunk?
      ensures i == |c| - 1 ==> c[i] == BatchFinished(ToInt32(|entering|))
    {
      ChunkPacketAt(unloaded, entering, w, i);
    }
  }

  lemma StepChunkPhase(m: Manager, plan: Plan, w: WorldSnapshot) returns (u: nat, b: nat)
    requires InWorld(plan.spawned, w) && ChunkPlan(m, plan)
    ensures var ps := Step(m, plan, w).1;
            var before, after := m.viewing.Keys, plan.window.Keys;
            && u <= b < |ps| - 1
            && (forall i :: 0 <= i < |ps| ==> (IsEntityPacket(ps[i]) <==> i < u))
            && (forall i :: u <= i < b ==> ps[i].Unload?)
            && b - u == |before - after|
            && ps[b] == BatchStart
            && (forall i :: b < i < |ps| - 1 ==> ps[i].LevelChunk?)
            && |ps| - 2 - b == |after - before|
            && ps[|ps| - 1] == BatchFinished(ToInt32(|after - before|))
  {
    var e := EntityPackets(plan.spawned, plan.departed, w);
    var c := ChunkPackets(plan.unloaded, plan.entering, w);
    EntityPhaseKinds(plan.spawned, plan.departed, w);
    ChunkPhaseKinds(plan.unloaded, plan.entering, w);
    ChunkPhaseLayout(plan.unloaded, plan.entering, w);
    u := |e|;
    b := |e| + |plan.unloaded|;
  }

  lemma StepUnloadTargetsLeaving(m: Manager, plan: Plan, w: WorldSnapshot, i: int)
    requires InWorld(plan.spawned, w) && ChunkPlan(m, plan)
    requires 0 <= i < |Step(m, plan, w).1| && Step(m, plan, w).1[i].Unload?
    ensures var ps := Step(m, plan, w).1;
            exists p :: p in m.viewing && p !in plan.window && p.x == ps[i].chunkX && p.z == ps[i].chunkZ
  {
    var e := EntityPackets(plan.spawned, plan.departed, w);
    EntityPhaseKinds(plan.spawned, plan.departed, w);
    assert i >= |e|;
    ChunkPacketAt(plan.unloaded, plan.entering, w, i - |e|);
    var p := plan.unloaded[i - |e|];
    assert p in plan.unloaded;
  }

  lemma StepLeavingUnloaded(m: Manager, plan: Plan, w: WorldSnapshot, p: ChunkPosition)
    requires InWorld(plan.spawned, w) && ChunkPlan(m, plan)
    requires p in m.viewing && p !in plan.window
    ensures exists i :: 0 <= i < |Step(m, plan, w).1| && Step(m, plan, w).1[i] == Unload(p.x, p.z)
  {
    var e := EntityPackets(plan.spawned, plan.departed, w);
    var c := ChunkPackets(plan.unloaded, plan.entering, w);
    var k :| 0 <= k < |plan.unloaded| && plan.unloaded[k] == p;
    ChunkPacketAt(plan.unloaded, plan.entering, w, k);
    AtSecond(e, c, k);
    assert Step(m, plan, w).1[|e| + k] == Unload(p.x, p.z);
  }

  lemma StepEnteringSentOnce(m: Manager, plan: Plan, w: WorldSnapshot, p: ChunkPosition)
    requires InWorld(plan.spawned, w) && ChunkPlan(m, plan)
    requires p in plan.window && p !in m.viewing
    requires forall q :: q in plan.window ==> q.world == p.world
    ensures OccursOnce(Step(m, plan, w).1, ChunkPacket(w, p))
  {
    var e := EntityPackets(plan.spawned, plan.departed, w);
    var c := ChunkPackets(plan.unloaded, plan.entering, w);
    forall k | 0 <= k < |plan.entering|
      ensures plan.entering[k].world == p.world
    {
      assert plan.entering[k] in plan.entering;
    }
    EnteringOnceInPhase(plan.unloaded, plan.entering, w, p);
    EntityPhaseKinds(plan.spawned, plan.departed, w);
    OnceInSecond(e, c, ChunkPacket(w, p));
  }

  lemma StepChunkDataForEntering(m: Manager, plan: Plan, w: WorldSnapshot, i: int)
    requires InWorld(plan.spawned, w) && ChunkPlan(m, plan)
    requires 0 <= i < |Step(m, plan, w).1| && Step(m, plan, w).1[i].LevelChunk?
    ensures exists p :: p in plan.window && p !in m.viewing && Step(m, plan, w).1[i] == ChunkPacket(w, p)
  {
    var e := EntityPackets(plan.spawned, plan.departed, w);
    EntityPhaseKinds(plan.spawned, plan.departed, w);
    assert i >= |e|;
    ChunkPacketAt(plan.unloaded, plan.entering, w, i - |e|);
    var p := plan.entering[i - |e| - |plan.unloaded| - 1];
    assert p in plan.entering;
  }

  lemma QuietPhases(w: WorldSnapshot)
    ensures EntityPackets([], [], w) == []
    ensures ChunkPackets([], [], w) == [BatchStart, BatchFinished(0)]
  {
    ChunkPacketAt([], [], w, 0);
    ChunkPacketAt([], [], w, 1);
  }

  /** A plan whose range and window are those already stored changes nothing
      and sends only an empty chunk batch. */
  lemma StepQuiet(m: Manager, plan: Plan, w: WorldSnapshot)
    requires EntityPlan(m, plan, w) && ChunkPlan(m, plan)
    requires plan.inRange == m.entities && plan.window == m.viewing
    ensures Step(m, plan, w) == (m, [BatchStart, BatchFinished(0)])
  {
    assert plan.inRange - m.entities == {} && m.entities - plan.inRange == {};
    assert m.viewing.Keys - plan.window.Keys == {} && plan.window.Keys - m.viewing.Keys == {};
    assert plan.spawned == [] && plan.departed == [];
    assert plan.unloaded == [] && plan.entering == [];
    QuietPhases(w);
    var quiet: seq<Packet> := [BatchStart, BatchFinished(0)];
    assert EntityPackets(plan.spawned, plan.departed, w) + ChunkPackets(plan.unloaded, plan.entering, w)
           == [] + quiet == quiet;
    assert m == Manager(m.player, m.entities, m.viewing);
  }

  // ---------------------------------------------------------------------------
  // The update.

  /** In PLAY state the update carries out the plan it computes, and that
      plan enumerates each set it needs once. */
  lemma UpdateIsStep(m: Manager, now: PlayerSnapshot, viewDistance: Int32)
    requires m.player.Some? && now.state == Play
    ensures var plan := PlanOf(m, now, viewDistance);
            && InWorld(plan.spawned, now.world)
            && Update(m, now, viewDistance) == Step(m, plan, now.world)
            && EntityPlan(m, plan, now.world) && ChunkPlan(m, plan)
  {
    var plan := PlanOf(m, now, viewDistance);
    assert Distinct(plan.spawned) && Distinct(plan.departed);
    assert Distinct(plan.unloaded) && Distinct(plan.entering);
  }

  /** In PLAY state the update stores the entities in range and the window. */
  lemma UpdateStores(m: Manager, now: PlayerSnapshot, viewDistance: Int32)
    requires m.player.Some? && now.state == Play
    ensures Update(m, now, viewDistance).0
            == Manager(m.player, EntitiesInRange(now.world, now.location, viewDistance),
                       Window(now.world, now.location, viewDistance))
  {
  }

  /** The stored entities are exactly those of the world whose squared
      distance to the player is below the bound. */
  lemma StoredEntitiesAreThoseInRange(m: Manager, now: PlayerSnapshot, viewDistance: Int32, id: EntityId)
    requires m.player.Some? && now.state == Play
    ensures id in Update(m, now, viewDistance).0.entities
            <==> id in now.world.entities
                 && DistanceSquared(now.world.entities[id].location, now.location) < RangeBound(viewDistance) as real
  {
    UpdateStores(m, now, viewDistance);
  }

  /** At 2897 chunks the product wraps to a negative bound and no entity is
      ever in range. */
  lemma RangeBoundWrapsAt2897(e: EntityState, at: Location)
    ensures RangeBound(2897) < 0
    ensures !InRange(e, at, 2897)
  {
    assert ToInt32(2897 * 16) == 46352;
    assert ToInt32(46352 * 46352) == 46352 * 46352 - TWO_32;
  }

  /** Every spawn packet is for an entity that is in range now and was not
      before, built from its current state, and is followed directly by the
      metadata packet of the same entity. */
  lemma SpawnIsFollowedByMetadata(m: Manager, now: PlayerSnapshot, viewDistance: Int32, i: int)
    requires m.player.Some? && now.state == Play
    requires 0 <= i < |Update(m, now, viewDistance).1| && Update(m, now, viewDistance).1[i].Spawn?
    ensures var ps := Update(m, now, viewDistance).1;
            var id := ps[i].spawn.entityId;
            && i + 1 < |ps| && ps[i + 1] == Metadata(id)
            && id in Update(m, now, viewDistance).0.entities && id !in m.entities
            && id in now.world.entities && ps[i].spawn == SpawnFor(id, now.world.entities[id])
  {
    UpdateIsStep(m, now, viewDistance);
    StepSpawnFollowedByMetadata(m, PlanOf(m, now, viewDistance), now.world, i);
  }

  /** An entity that arrived gets exactly one spawn packet and one metadata
      packet; any other entity gets neither. */
  lemma ArrivalSpawnedOnce(m: Manager, now: PlayerSnapshot, viewDistance: Int32, id: EntityId)
    requires m.player.Some? && now.state == Play
    ensures var ps := Update(m, now, viewDistance).1;
            var arrived := id in Update(m, now, viewDistance).0.entities && id !in m.entities;
            && (arrived ==> id in now.world.entities
                            && OccursOnce(ps, Spawn(SpawnFor(id, now.world.entities[id])))
                            && OccursOnce(ps, Metadata(id)))
            && (!arrived ==> Absent(ps, Metadata(id))
                             && forall i :: 0 <= i < |ps| && ps[i].Spawn? ==> ps[i].spawn.entityId != id)
  {
    UpdateIsStep(m, now, viewDistance);
    StepArrivalSpawnedOnce(m, PlanOf(m, now, viewDistance), now.world, id);
  }

  /** An entity that departed gets exactly one destroy packet of its own; any
      other entity gets none. */
  lemma DepartedDestroyedOnce(m: Manager, now: PlayerSnapshot, viewDistance: Int32, id: EntityId)
    requires m.player.Some? && now.state == Play
    ensures var ps := Update(m, now, viewDistance).1;
            var departed := id in m.entities && id !in Update(m, now, viewDistance).0.entities;
            && (departed ==> OccursOnce(ps, Destroy(id)))
            && (!departed ==> Absent(ps, Destroy(id)))
  {
    UpdateIsStep(m, now, viewDistance);
    StepDepartedDestroyedOnce(m, PlanOf(m, now, viewDistance), now.world, id);
  }

  /** Every spawn, metadata and destroy packet comes before every chunk
      packet. */
  lemma EntityPacketsPrecedeChunkPackets(m: Manager, now: PlayerSnapshot, viewDistance: Int32)
    requires m.player.Some? && now.state == Play
    ensures var ps := Update(m, now, viewDistance).1;
            forall i, j :: 0 <= i < |ps| && 0 <= j < |ps| && IsEntityPacket(ps[i]) && IsChunkPacket(ps[j]) ==> i < j
  {
    UpdateIsStep(m, now, viewDistance);
    StepEntityPacketsFirst(m, PlanOf(m, now, viewDistance), now.world);
  }

  // ---------------------------------------------------------------------------
  // The chunk window.

  lemma InRect(world: string, x0: int, x1: int, z0: int, z1: int, p: ChunkPosition)
    ensures p in Rect(world, x0, x1, z0, z1) <==> p.world == world && x0 <= p.x < x1 && z0 <= p.z < z1
  {
    if p.world == world && x0 <= p.x < x1 && z0 <= p.z < z1 {
      assert p == ChunkPosition(world, p.x, p.z);
    }
  }

  lemma {:induction false} ColumnSize(world: string, x: int, z0: int, z1: int)
    requires z0 <= z1
    ensures |Rect(world, x, x + 1, z0, z1)| == z1 - z0
    decreases z1 - z0
  {
    if z0 == z1 {
      var x1 := x + 1;
      forall p
        ensures p !in Rect(world, x, x1, z0, z1)
      {
        InRect(world, x, x1, z0, z1, p);
      }
      assert Rect(world, x, x1, z0, z1) == {};
    } else {
      ColumnSize(world, x, z0, z1 - 1);
      var before := Rect(world, x, x + 1, z0, z1 - 1);
      var last := ChunkPosition(world, x, z1 - 1);
      forall p
        ensures p in Rect(world, x, x + 1, z0, z1) <==> p in before || p == last
      {
        InRect(world, x, x + 1, z0, z1, p);
        InRect(world, x, x + 1, z0, z1 - 1, p);
      }
      InRect(world, x, x + 1, z0, z1 - 1, last);
      assert Rect(world, x, x + 1, z0, z1) == before + {last};
    }
  }

  lemma {:induction false} RectSize(world: string, x0: int, x1: int, z0: int, z1: int)
    requires x0 <= x1 && z0 <= z1
    ensures |Rect(world, x0, x1, z0, z1)| == (x1 - x0) * (z1 - z0)
    decreases x1 - x0
  {
    if x0 == x1 {
      forall p
        ensures p !in Rect(world, x0, x1, z0, z1)
      {
        InRect(world, x0, x1, z0, z1, p);
      }
      assert Rect(world, x0, x1, z0, z1) == {};
    } else {
      var before := Rect(world, x0, x1 - 1, z0, z1);
      var column := Rect(world, x1 - 1, x1, z0, z1);
      RectSize(world, x0, x1 - 1, z0, z1);
      ColumnSize(world, x1 - 1, z0, z1);
      forall p
        ensures p in Rect(world, x0, x1, z0, z1) <==> p in before || p in column
        ensures !(p in before && p in column)
      {
        InRect(world, x0, x1, z0, z1, p);
        InRect(world, x0, x1 - 1, z0, z1, p);
        InRect(world, x1 - 1, x1, z0, z1, p);
      }
      assert Rect(world, x0, x1, z0, z1) == before + column;
      assert before * column == {};
      assert (x1 - x0) * (z1 - z0) == (x1 - 1 - x0) * (z1 - z0) + (z1 - z0);
    }
  }

  /** The stored window is every position of the player's world whose
      coordinates lie within the view distance of the player's chunk, lower
      bound included and upper bound excluded, each holding the world's chunk
      or the empty sentinel. */
  lemma WindowMembership(m: Manager, now: PlayerSnapshot, viewDistance: Int32, p: ChunkPosition)
    requires m.player.Some? && now.state == Play
    ensures var viewing := Update(m, now, viewDistance).0.viewing;
            var cx, cz := ChunkCoordinate(now.location.x), ChunkCoordinate(now.location.z);
            && (p in viewing <==> p.world == now.world.name
                                  && cx - viewDistance <= p.x < cx + viewDistance
                                  && cz - viewDistance <= p.z < cz + viewDistance)
            && (p in viewing ==> viewing[p] == ChunkAt(now.world, p.x, p.z))
  {
    UpdateStores(m, now, viewDistance);
    var cx, cz := ChunkCoordinate(now.location.x), ChunkCoordinate(now.location.z);
    InRect(now.world.name, cx - viewDistance, cx + viewDistance, cz - viewDistance, cz + viewDistance, p);
  }

  /** The square of positions around a chunk holds `(2 * viewDistance)^2`
      positions, and none for a view distance that is not positive. */
  lemma SquareSize(world: string, cx: int, cz: int, viewDistance: int)
    ensures |WindowPositions(world, cx, cz, viewDistance)|
            == if viewDistance > 0 then (2 * viewDistance) * (2 * viewDistance) else 0
  {
    var x0, x1, z0, z1 := cx - viewDistance, cx + viewDistance, cz - viewDistance, cz + viewDistance;
    var positions := Rect(world, x0, x1, z0, z1);
    if viewDistance > 0 {
      RectSize(world, x0, x1, z0, z1);
    } else {
      forall p
        ensures p !in positions
      {
        InRect(world, x0, x1, z0, z1, p);
      }
      assert positions == {};
    }
  }

  lemma WindowKeys(w: WorldSnapshot, at: Location, viewDistance: Int32)
    ensures Window(w, at, viewDistance).Keys
            == WindowPositions(w.name, ChunkCoordinate(at.x), ChunkCoordinate(at.z), viewDistance)
  {
  }

  /** The window holds `(2 * viewDistance)^2` positions, and none for a view
      distance that is not positive. */
  lemma WindowSize(m: Manager, now: PlayerSnapshot, viewDistance: Int32)
    requires m.player.Some? && now.state == Play
    ensures |Update(m, now, viewDistance).0.viewing.Keys|
            == if viewDistance > 0 then (2 * viewDistance) * (2 * viewDistance) else 0
  {
    UpdateStores(m, now, viewDistance);
    WindowKeys(now.world, now.location, viewDistance);
    SquareSize(now.world.name, ChunkCoordinate(now.location.x), ChunkCoordinate(now.location.z), viewDistance);
  }

  /** The layout of the chunk phase: after the entity packets (indices below
      `u`) come exactly one unload per position that left the window, then
      the single batch start at `b`, then exactly one chunk-data packet per
      position that entered it, then the batch end carrying their number. */
  lemma ChunkPhase(m: Manager, now: PlayerSnapshot, viewDistance: Int32) returns (u: nat, b: nat)
    requires m.player.Some? && now.state == Play
    ensures var ps := Update(m, now, viewDistance).1;
            var before, after := m.viewing.Keys, Update(m, now, viewDistance).0.viewing.Keys;
            && u <= b < |ps| - 1
            && (forall i :: 0 <= i < |ps| ==> (IsEntityPacket(ps[i]) <==> i < u))
            && (forall i :: u <= i < b ==> ps[i].Unload?)
            && b - u == |before - after|
            && ps[b] == BatchStart
            && (forall i :: b < i < |ps| - 1 ==> ps[i].LevelChunk?)
            && |ps| - 2 - b == |after - before|
            && ps[|ps| - 1] == BatchFinished(ToInt32(|after - before|))
  {
    UpdateIsStep(m, now, viewDistance);
    u, b := StepChunkPhase(m, PlanOf(m, now, viewDistance), now.world);
  }

  /** Every unload packet names an old position that is outside the new
      window. */
  lemma UnloadTargetsLeavingPosition(m: Manager, now: PlayerSnapshot, viewDistance: Int32, i: int)
    requires m.player.Some? && now.state == Play
    requires 0 <= i < |Update(m, now, viewDistance).1| && Update(m, now, viewDistance).1[i].Unload?
    ensures var ps, viewing := Update(m, now, viewDistance).1, Update(m, now, viewDistance).0.viewing;
            exists p :: p in m.viewing && p !in viewing && p.x == ps[i].chunkX && p.z == ps[i].chunkZ
  {
    UpdateIsStep(m, now, viewDistance);
    StepUnloadTargetsLeaving(m, PlanOf(m, now, viewDistance), now.world, i);
  }

  /** Every position that left the window is unloaded. */
  lemma LeavingPositionUnloaded(m: Manager, now: PlayerSnapshot, viewDistance: Int32, p: ChunkPosition)
    requires m.player.Some? && now.state == Play
    requires p in m.viewing && p !in Update(m, now, viewDistance).0.viewing
    ensures exists i :: 0 <= i < |Update(m, now, viewDistance).1| && Update(m, now, viewDistance).1[i] == Unload(p.x, p.z)
  {
    UpdateIsStep(m, now, viewDistance);
    StepLeavingUnloaded(m, PlanOf(m, now, viewDistance), now.world, p);
  }

  /** Every position that entered the window gets exactly one chunk-data
      packet, an empty-sentinel one included. */
  lemma EnteringPositionSentOnce(m: Manager, now: PlayerSnapshot, viewDistance: Int32, p: ChunkPosition)
    requires m.player.Some? && now.state == Play
    requires p in Update(m, now, viewDistance).0.viewing && p !in m.viewing
    ensures OccursOnce(Update(m, now, viewDistance).1, ChunkPacket(now.world, p))
  {
    var plan := PlanOf(m, now, viewDistance);
    UpdateIsStep(m, now, viewDistance);
    forall q | q in plan.window
      ensures q.world == p.world
    {
      WindowMembership(m, now, viewDistance, q);
      WindowMembership(m, now, viewDistance, p);
    }
    StepEnteringSentOnce(m, plan, now.world, p);
  }

  /** Every chunk-data packet is for a position that entered the window. */
  lemma ChunkDataForEnteringPosition(m: Manager, now: PlayerSnapshot, viewDistance: Int32, i: int)
    requires m.player.Some? && now.state == Play
    requires 0 <= i < |Update(m, now, viewDistance).1| && Update(m, now, viewDistance).1[i].LevelChunk?
    ensures exists p :: p in Update(m, now, viewDistance).0.viewing && p !in m.viewing
                        && Update(m, now, viewDistance).1[i] == ChunkPacket(now.world, p)
  {
    UpdateIsStep(m, now, viewDistance);
    StepChunkDataForEntering(m, PlanOf(m, now, viewDistance), now.world, i);
  }

  // ---------------------------------------------------------------------------
  // A second call.

  /** With the same world and position, a second call sends only an empty
      chunk batch and stores the same state again. */
  lemma SecondUpdateSendsEmptyBatch(m: Manager, now: PlayerSnapshot, viewDistance: Int32)
    requires m.player.Some? && now.state == Play
    ensures var m1 := Update(m, now, viewDistance).0;
            Update(m1, now, viewDistance) == (m1, [BatchStart, BatchFinished(0)])
  {
    var m1 := Update(m, now, viewDistance).0;
    UpdateIsStep(m, now, viewDistance);
    UpdateIsStep(m1, now, viewDistance);
    var plan := PlanOf(m1, now, viewDistance);
    assert plan.inRange == m1.entities && plan.window == m1.viewing;
    StepQuiet(m1, plan, now.world);
  }

  /** `setPlayer` succeeds once: after it, a second call fails. */
  lemma SetPlayerOnce(m: Manager, first: PlayerId, second: PlayerId)
    requires SetPlayer(m, first).Some?
    ensures SetPlayer(SetPlayer(m, first).value, second).None?
    ensures SetPlayer(NewManager(), first).Some?
  {
  }

}

=== FILE: wire.dfy ===
/** Wire primitives of the game protocol, as the packet serialisers use them
    through `DataOutputStream` and `DataTypeIO`: single bytes, fixed-width
    big-endian integers, the VarInt, the 16-byte UUID and the length-prefixed
    UTF-8 string.  Every encoder has a decoder and a round-trip lemma. */
module Wire {
  import opened Wrappers

  type Byte = b: int | 0 <= b < 0x100

  /** A Java `int`, `short` and `long`. */
  type Int16 = x: int | -0x8000 <= x < 0x8000
  type Int32 = x: int | -0x8000_0000 <= x < 0x8000_0000
  type Int64 = x: int | -0x8000_0000_0000_0000 <= x < 0x8000_0000_0000_0000

  const TWO_32: int := 0x1_0000_0000

  function Pow256(n: nat): (r: nat)
    ensures r >= 1
  {
    if n == 0 then 1 else 256 * Pow256(n - 1)
  }

  function Pow128(n: nat): (r: nat)
    ensures r >= 1
  {
    if n == 0 then 1 else 128 * Pow128(n - 1)
  }

  /** The value of a two's-complement bit pattern `u` of `n` bytes. */
  function ToSigned(u: int, n: nat): (r: int)
    ensures 0 <= Pow256(n) + 2 * r && 2 * r < Pow256(n)
  {
    var m := Pow256(n);
    var w := u % m;
    if 2 * w >= m then w - m else w
  }

  /** A Java narrowing cast `(int) v` of a wider integer: keeps the low 32 bits. */
  function ToInt32(v: int): (r: Int32)
    ensures (r - v) % TWO_32 == 0
  {
    var w := v % TWO_32;
    if w >= 0x8000_0000 then w - TWO_32 else w
  }

  /** A value already in the Java int range is its own wrap. */
  lemma ToInt32Identity(v: int)
    requires -0x8000_0000 <= v < 0x8000_0000
    ensures ToInt32(v) == v
  {
    if v >= 0 {
      ModUnique(v, TWO_32, 0, v);
    } else {
      ModUnique(v, TWO_32, -1, v + TWO_32);
    }
  }

  // ---------------------------------------------------------------------------
  // Division facts used by the round trips below.

  lemma ModUnique(a: int, m: int, q: int, r: int)
    requires m > 0 && 0 <= r < m && a == q * m + r
    ensures a % m == r && a / m == q
  {
    var d := a / m - q;
    assert a == (a / m) * m + a % m;
    assert d * m == r - a % m;
  }

  lemma MulDistributes(x: int, y: int, b: int)
    ensures (x + y) * b == x * b + y * b
  {
  }

  lemma MulBelow(x: int, y: int, b: int)
    requires 0 <= x <= y && b >= 0
    ensures 0 <= x * b <= y * b
  {
  }

  /** Splitting a remainder modulo `b * c` into a remainder modulo `b` and a
      remainder of the quotient modulo `c`. */
  lemma ModMul(a: int, b: int, c: int)
    requires b > 0 && c > 0
    ensures a % (b * c) == ((a / b) % c) * b + a % b
  {
    var q1 := a / b;
    var r1 := a % b;
    var q2 := q1 / c;
    var r2 := q1 % c;
    assert a == q1 * b + r1;
    assert q1 == q2 * c + r2;
    MulDistributes(q2 * c, r2, b);
    assert q2 * c * b == q2 * (b * c);
    assert a == q2 * (b * c) + (r2 * b + r1);
    MulBelow(r2, c - 1, b);
    assert (c - 1) * b == b * c - b;
    ModUnique(a, b * c, q2, r2 * b + r1);
  }

  // ---------------------------------------------------------------------------
  // Shapes of concatenated byte strings.

  lemma SplitAt(a: seq<Byte>, b: seq<Byte>)
    ensures (a + b)[..|a|] == a && (a + b)[|a|..] == b
  {
  }

  lemma Regroup3(a: seq<Byte>, b: seq<Byte>, c: seq<Byte>)
    ensures a + b + c == a + (b + c)
  {
  }

  lemma Regroup4(a: seq<Byte>, b: seq<Byte>, c: seq<Byte>, d: seq<Byte>)
    ensures a + b + c + d == a + (b + (c + d))
  {
  }

  lemma Regroup5(a: seq<Byte>, b: seq<Byte>, c: seq<Byte>, d: seq<Byte>, e: seq<Byte>)
    ensures a + b + c + d + e == a + (b + (c + (d + e)))
  {
  }

  lemma DetachFirst(a: seq<Byte>, b: seq<Byte>, c: seq<Byte>, d: seq<Byte>, e: seq<Byte>)
    ensures a + b + c + d + e == a + (b + c + d + e)
  {
  }

  // ---------------------------------------------------------------------------
  // Fixed-width big-endian integers (writeByte, writeShort, writeInt, writeLong).

  /** The low `n` bytes of `v`, most significant first: `DataOutputStream`'s
      fixed-width writers, which keep the low bits of a two's-complement value. */
  function BigEndian(v: int, n: nat): (r: seq<Byte>)
    ensures |r| == n
    decreases n
  {
    if n == 0 then [] else BigEndian(v / 256, n - 1) + [v % 256]
  }

  /** The unsigned value of a big-endian byte string. */
  function FromBigEndian(bs: seq<Byte>): (r: nat)
    ensures r < Pow256(|bs|)
  {
    if |bs| == 0 then 0
    else
      var hi := FromBigEndian(bs[..|bs| - 1]);
      assert hi * 256 + bs[|bs| - 1] < Pow256(|bs|) by {
        assert hi + 1 <= Pow256(|bs| - 1);
        assert (hi + 1) * 256 <= Pow256(|bs| - 1) * 256;
      }
      hi * 256 + bs[|bs| - 1]
  }

  /** Decoding the fixed-width encoding gives back the value modulo 256^n:
      only the low `n` bytes survive, and they survive exactly. */
  lemma {:induction false} BigEndianRoundTrip(v: int, n: nat)
    ensures FromBigEndian(BigEndian(v, n)) == v % Pow256(n)
    decreases n
  {
    if n == 0 {
    } else {
      var bs := BigEndian(v, n);
      assert bs[..n - 1] == BigEndian(v / 256, n - 1);
      BigEndianRoundTrip(v / 256, n - 1);
      ModMul(v, 256, Pow256(n - 1));
      assert Pow256(n) == 256 * Pow256(n - 1);
    }
  }

  /** Decoding eight written bytes gives the value modulo 2^64. */
  lemma LongBytes(v: int)
    ensures FromBigEndian(BigEndian(v, 8)) == v % 0x1_0000_0000_0000_0000
  {
    BigEndianRoundTrip(v, 8);
    assert Pow256(8) == 0x1_0000_0000_0000_0000;
  }

  /** Encoding is determined by the value modulo 256^n: values that agree on
      their low bytes encode identically (the wrap-around of a narrowing write). */
  lemma {:induction false} BigEndianModulo(v: int, w: int, n: nat)
    requires v % Pow256(n) == w % Pow256(n)
    ensures BigEndian(v, n) == BigEndian(w, n)
    decreases n
  {
    if n > 0 {
      ModMul(v, 256, Pow256(n - 1));
      ModMul(w, 256, Pow256(n - 1));
      assert Pow256(n) == 256 * Pow256(n - 1);
      var a := (v / 256) % Pow256(n - 1);
      var b := (w / 256) % Pow256(n - 1);
      assert a * 256 + v % 256 == b * 256 + w % 256;
      ModUnique(a * 256 + v % 256, 256, a, v % 256);
      ModUnique(b * 256 + w % 256, 256, b, w % 256);
      BigEndianModulo(v / 256, w / 256, n - 1);
    }
  }

  /** `DataOutputStream.writeByte`: the low 8 bits of an int. */
  function WriteByte(v: int): (r: seq<Byte>)
    ensures |r| == 1 && (r[0] - v) % 256 == 0
  {
    [v % 256]
  }

  /** `DataOutputStream.writeBoolean`: one byte, 1 for true and 0 for false. */
  function WriteBoolean(b: bool): (r: seq<Byte>)
    ensures |r| == 1 && (r[0] == 1 <==> b) && (r[0] == 0 <==> !b)
  {
    if b then [1] else [0]
  }

  // ---------------------------------------------------------------------------
  // VarInt: seven data bits per byte, least significant group first, the high
  // bit of each byte set when more bytes follow.

  /** The base-128 groups of a non-negative value. */
  function Leb128(u: nat): (r: seq<Byte>)
    ensures |r| >= 1
  {
    if u < 128 then [u] else [u % 128 + 128] + Leb128(u / 128)
  }

  /** `DataTypeIO.writeVarInt` of a Java int: a negative int is written through
      its unsigned 32-bit pattern, so it always takes five bytes. */
  function VarInt(v: int): (r: seq<Byte>)
    ensures 1 <= |r| <= 5
  {
    LebLength(v % TWO_32, 5);
    Leb128(v % TWO_32)
  }

  /** Every byte of a VarInt but the last has its continuation bit set. */
  lemma {:induction false} LebShape(u: nat)
    ensures Leb128(u)[|Leb128(u)| - 1] < 128
    ensures forall i :: 0 <= i < |Leb128(u)| - 1 ==> Leb128(u)[i] >= 128
  {
    if u >= 128 {
      LebShape(u / 128);
    }
  }

  lemma VarIntShape(v: int)
    ensures VarInt(v)[|VarInt(v)| - 1] < 128
    ensures forall i :: 0 <= i < |VarInt(v)| - 1 ==> VarInt(v)[i] >= 128
  {
    LebShape(v % TWO_32);
  }

  /** A value below 128 is a single VarInt byte holding itself. */
  lemma SmallVarInt(n: int)
    requires 0 <= n < 128
    ensures VarInt(n) == [n]
  {
    ModUnique(n, TWO_32, 0, n);
  }

  lemma {:induction false} LebLength(u: nat, k: nat)
    requires k >= 1 && u < Pow128(k)
    ensures |Leb128(u)| <= k
  {
    if u >= 128 {
      assert Pow128(1) == 128;
      assert u / 128 < Pow128(k - 1) by {
        assert Pow128(k) == 128 * Pow128(k - 1);
      }
      LebLength(u / 128, k - 1);
    }
  }

  /** Reads at most `k` groups of a VarInt; fails on a missing terminator. */
  function ParseLeb(bs: seq<Byte>, k: nat): Option<(nat, seq<Byte>)>
  {
    if k == 0 || |bs| == 0 then None
    else if bs[0] < 128 then Some((bs[0], bs[1..]))
    else
      match ParseLeb(bs[1..], k - 1)
      case None => None
      case Some((v, rest)) => Some((bs[0] - 128 + 128 * v, rest))
  }

  lemma {:induction false} LebRoundTrip(u: nat, k: nat, rest: seq<Byte>)
    requires k >= 1 && u < Pow128(k)
    ensures ParseLeb(Leb128(u) + rest, k) == Some((u, rest))
  {
    if u >= 128 {
      assert Pow128(1) == 128;
      assert u / 128 < Pow128(k - 1) by {
        assert Pow128(k) == 128 * Pow128(k - 1);
      }
      LebRoundTrip(u / 128, k - 1, rest);
      var bs := Leb128(u) + rest;
      assert bs[1..] == Leb128(u / 128) + rest;
    } else {
      assert (Leb128(u) + rest)[1..] == rest;
    }
  }

  /** `DataTypeIO.readVarInt`: at most five groups, read back as a Java int. */
  function ParseVarInt(bs: seq<Byte>): Option<(Int32, seq<Byte>)>
  {
    match ParseLeb(bs, 5)
    case None => None
    case Some((u, rest)) => Some((ToInt32(u), rest))
  }

  /** Every Java int survives the VarInt encoding, whatever follows it. */
  lemma VarIntRoundTrip(v: Int32, rest: seq<Byte>)
    ensures ParseVarInt(VarInt(v) + rest) == Some((v, rest))
  {
    assert Pow128(5) == 0x8_0000_0000;
    LebRoundTrip(v % TWO_32, 5, rest);
    if v >= 0 {
      ModUnique(v, TWO_32, 0, v);
    } else {
      ModUnique(v, TWO_32, -1, v + TWO_32);
    }
  }

  // ---------------------------------------------------------------------------
  // UUID: two big-endian 64-bit halves.

  datatype Uuid = Uuid(mostSignificant: Int64, leastSignificant: Int64)

  /** `DataTypeIO.writeUUID`: the most significant half, then the least. */
  function UuidBytes(u: Uuid): (r: seq<Byte>)
    ensures |r| == 16
  {
    BigEndian(u.mostSignificant, 8) + BigEndian(u.leastSignificant, 8)
  }

  /** Reads an `n`-byte big-endian two's-complement integer, as `readShort`,
      `readInt` and `readLong` do. */
  function ParseFixed(bs: seq<Byte>, n: nat): Option<(int, seq<Byte>)>
  {
    if |bs| < n then None else Some((ToSigned(FromBigEndian(bs[..n]), n), bs[n..]))
  }

  /** A fixed-width write read back gives the value wrapped into the signed
      range of its width: the narrowing the writer applies and nothing else. */
  lemma FixedRoundTrip(v: int, n: nat, rest: seq<Byte>)
    ensures ParseFixed(BigEndian(v, n) + rest, n) == Some((ToSigned(v, n), rest))
  {
    var bytes := BigEndian(v, n);
    SplitAt(bytes, rest);
    BigEndianRoundTrip(v, n);
    ToSignedOfModulo(v, n);
  }

  /** Wrapping first changes nothing: only the residue matters. */
  lemma ToSignedOfModulo(v: int, n: nat)
    ensures ToSigned(v % Pow256(n), n) == ToSigned(v, n)
  {
    ModUnique(v % Pow256(n), Pow256(n), 0, v % Pow256(n));
  }

  /** A value already in the signed range of `n` bytes is its own wrap. */
  lemma ToSignedIdentity(v: int, n: nat)
    requires 0 <= Pow256(n) + 2 * v && 2 * v < Pow256(n)
    ensures ToSigned(v, n) == v
  {
    if v >= 0 {
      ModUnique(v, Pow256(n), 0, v);
    } else {
      ModUnique(v, Pow256(n), -1, v + Pow256(n));
    }
  }

  function ParseLong(bs: seq<Byte>): Option<(Int64, seq<Byte>)>
  {
    match ParseFixed(bs, 8)
    case None => None
    case Some((v, rest)) =>
      assert Pow256(8) == 0x1_0000_0000_0000_0000;
      Some((v, rest))
  }

  /** `writeLong` followed by `readLong` gives back every Java long. */
  lemma LongRoundTrip(v: Int64, rest: seq<Byte>)
    ensures ParseLong(BigEndian(v, 8) + rest) == Some((v, rest))
  {
    FixedRoundTrip(v, 8, rest);
    assert Pow256(8) == 0x1_0000_0000_0000_0000;
    ToSignedIdentity(v, 8);
  }

  function ParseUuid(bs: seq<Byte>): Option<(Uuid, seq<Byte>)>
  {
    match ParseLong(bs)
    case None => None
    case Some((hi, rest)) =>
      match ParseLong(rest)
      case None => None
      case Some((lo, rest')) => Some((Uuid(hi, lo), rest'))
  }

  lemma UuidRoundTrip(u: Uuid, rest: seq<Byte>)
    ensures ParseUuid(UuidBytes(u) + rest) == Some((u, rest))
  {
    var lo := BigEndian(u.leastSignificant, 8) + rest;
    assert UuidBytes(u) + rest == BigEndian(u.mostSignificant, 8) + lo;
    LongRoundTrip(u.mostSignificant, lo);
    LongRoundTrip(u.leastSignificant, rest);
  }

  // ---------------------------------------------------------------------------
  // UTF-8 (RFC 3629) and the length-prefixed string.

  /** The RFC 3629 encoding of one Unicode scalar value: one byte below
      U+0080, two below U+0800, three below U+10000, four above. */
  function Utf8Char(c: char): (r: seq<Byte>)
    ensures 1 <= |r| <= 4
  {
    var v := c as int;
    if v < 0x80 then [v]
    else if v < 0x800 then [0xC0 + v / 64, 0x80 + v % 64]
    else if v < 0x1_0000 then [0xE0 + v / 4096, 0x80 + (v / 64) % 64, 0x80 + v % 64]
    else [0xF0 + v / 0x4_0000, 0x80 + (v / 4096) % 64, 0x80 + (v / 64) % 64, 0x80 + v % 64]
  }

  /** The encoding is the shortest one: its length is fixed by the range of
      the scalar value. */
  lemma Utf8CharLength(c: char)
    ensures |Utf8Char(c)| == (if c as int < 0x80 then 1 else if c as int < 0x800 then 2 else if c as int < 0x1_0000 then 3 else 4)
  {
  }

  /** `String.getBytes(StandardCharsets.UTF_8)`. */
  function Utf8(s: string): (r: seq<Byte>)
    ensures |s| <= |r| <= 4 * |s|
  {
    if |s| == 0 then [] else Utf8Char(s[0]) + Utf8(s[1..])
  }

  /** Number of bytes of the sequence announced by a lead byte, or 0 when the
      byte cannot start one. */
  function SequenceLength(b: Byte): nat
  {
    if b < 0x80 then 1
    else if 0xC0 <= b < 0xE0 then 2
    else if 0xE0 <= b < 0xF0 then 3
    else if 0xF0 <= b < 0xF8 then 4
    else 0
  }

  /** The smallest scalar value that needs `n` bytes; a smaller value in an
      `n`-byte sequence is an overlong form, which RFC 3629 forbids. */
  function ShortestFrom(n: nat): int
  {
    if n <= 1 then 0 else if n == 2 then 0x80 else if n == 3 then 0x800 else 0x1_0000
  }

  predicate IsContinuation(b: Byte)
  {
    0x80 <= b < 0xC0
  }

  function ScalarOf(v: int): Option<char>
  {
    if 0 <= v < 0xD800 || 0xE000 <= v < 0x11_0000 then Some(v as char) else None
  }

  /** Decodes the first scalar value of `bs` and reports how many bytes it
      took; an overlong form or a surrogate is refused. */
  function DecodeChar(bs: seq<Byte>): Option<(char, nat)>
  {
    if |bs| == 0 then None
    else
      var n := SequenceLength(bs[0]);
      if n == 0 || |bs| < n then None
      else if exists i :: 1 <= i < n && !IsContinuation(bs[i]) then None
      else
        var v: int :=
          if n == 1 then bs[0]
          else if n == 2 then (bs[0] as int - 0xC0) * 64 + (bs[1] as int - 0x80)
          else if n == 3 then (bs[0] as int - 0xE0) * 4096 + (bs[1] as int - 0x80) * 64 + (bs[2] as int - 0x80)
          else (bs[0] as int - 0xF0) * 0x4_0000 + (bs[1] as int - 0x80) * 4096 + (bs[2] as int - 0x80) * 64 + (bs[3] as int - 0x80);
        if v < ShortestFrom(n) then None
        else
          match ScalarOf(v)
          case None => None
          case Some(c) => Some((c, n))
  }

  /** Decodes a whole byte string as UTF-8. */
  function DecodeUtf8(bs: seq<Byte>): Option<string>
    decreases |bs|
  {
    if |bs| == 0 then Some([])
    else
      match DecodeChar(bs)
      case None => None
      case Some((c, n)) =>
        if n == 0 then None
        else
          match DecodeUtf8(bs[n..])
          case None => None
          case Some(s) => Some([c] + s)
  }

  /** Reading back a sequence whose lead byte announces `n` bytes, whose
      other bytes are continuations and whose payload is the scalar `c`. */
  lemma DecodeCharOf(bs: seq<Byte>, n: nat, c: char)
    requires 1 <= n <= |bs| && SequenceLength(bs[0]) == n
    requires forall i :: 1 <= i < n ==> IsContinuation(bs[i])
    requires n == 1 ==> bs[0] == c as int
    requires n == 2 ==> (bs[0] as int - 0xC0) * 64 + (bs[1] as int - 0x80) == c as int
    requires n == 3 ==> (bs[0] as int - 0xE0) * 4096 + (bs[1] as int - 0x80) * 64 + (bs[2] as int - 0x80) == c as int
    requires n == 4 ==> (bs[0] as int - 0xF0) * 0x4_0000 + (bs[1] as int - 0x80) * 4096
                        + (bs[2] as int - 0x80) * 64 + (bs[3] as int - 0x80) == c as int
    requires ShortestFrom(n) <= c as int
    ensures DecodeChar(bs) == Some((c, n))
  {
    assert ScalarOf(c as int) == Some(c);
  }

  /** Overlong forms are refused: `C1 81` would spell 'A' in two bytes. */
  lemma OverlongRejected()
    ensures DecodeChar([0xC1, 0x81]) == None
    ensures DecodeChar([0xE0, 0x81, 0x81]) == None
    ensures DecodeChar([0xF0, 0x80, 0x81, 0x81]) == None
  {
  }

  /** The base-64 digits of a non-negative number below `64^4`. */
  lemma Digits64(v: int)
    requires 0 <= v
    ensures v == (v / 64) * 64 + v % 64
    ensures v / 64 == (v / 4096) * 64 + (v / 64) % 64
    ensures v / 4096 == (v / 0x4_0000) * 64 + (v / 4096) % 64
  {
  }

  lemma Utf8TwoBytes(c: char, rest: seq<Byte>)
    requires 0x80 <= c as int < 0x800
    ensures DecodeChar(Utf8Char(c) + rest) == Some((c, 2))
  {
    var v := c as int;
    var bs := Utf8Char(c) + rest;
    Digits64(v);
    assert bs[0] == 0xC0 + v / 64 && bs[1] == 0x80 + v % 64;
    DecodeCharOf(bs, 2, c);
  }

  lemma Utf8ThreeBytes(c: char, rest: seq<Byte>)
    requires 0x800 <= c as int < 0x1_0000
    ensures DecodeChar(Utf8Char(c) + rest) == Some((c, 3))
  {
    var v := c as int;
    var bs := Utf8Char(c) + rest;
    Digits64(v);
    assert bs[0] == 0xE0 + v / 4096 && bs[1] == 0x80 + (v / 64) % 64 && bs[2] == 0x80 + v % 64;
    DecodeCharOf(bs, 3, c);
  }

  lemma Utf8FourBytes(c: char, rest: seq<Byte>)
    requires 0x1_0000 <= c as int
    ensures DecodeChar(Utf8Char(c) + rest) == Some((c, 4))
  {
    var v := c as int;
    var bs := Utf8Char(c) + rest;
    Digits64(v);
    assert bs[0] == 0xF0 + v / 0x4_0000 && bs[1] == 0x80 + (v / 4096) % 64;
    assert bs[2] == 0x80 + (v / 64) % 64 && bs[3] == 0x80 + v % 64;
    DecodeCharOf(bs, 4, c);
  }

  lemma Utf8CharRoundTrip(c: char, rest: seq<Byte>)
    ensures DecodeChar(Utf8Char(c) + rest) == Some((c, |Utf8Char(c)|))
  {
    var v := c as int;
    if v < 0x80 {
      DecodeCharOf(Utf8Char(c) + rest, 1, c);
    } else if v < 0x800 {
      Utf8TwoBytes(c, rest);
    } else if v < 0x1_0000 {
      Utf8ThreeBytes(c, rest);
    } else {
      Utf8FourBytes(c, rest);
    }
  }

  /** Every string survives its UTF-8 encoding. */
  lemma {:induction false} Utf8RoundTrip(s: string)
    ensures DecodeUtf8(Utf8(s)) == Some(s)
  {
    if |s| > 0 {
      var bs := Utf8(s);
      Utf8CharRoundTrip(s[0], Utf8(s[1..]));
      assert bs[|Utf8Char(s[0])|..] == Utf8(s[1..]);
      Utf8RoundTrip(s[1..]);
      assert [s[0]] + s[1..] == s;
    }
  }

  /** `DataTypeIO.writeString`: the VarInt byte length, then the UTF-8 bytes. */
  function WriteString(s: string): (r: seq<Byte>)
    ensures |r| == |VarInt(|Utf8(s)|)| + |Utf8(s)|
  {
    var bytes := Utf8(s);
    VarInt(|bytes|) + bytes
  }

  function ParseString(bs: seq<Byte>): Option<(string, seq<Byte>)>
  {
    match ParseVarInt(bs)
    case None => None
    case Some((n, rest)) =>
      if n < 0 || n > |rest| then None
      else
        match DecodeUtf8(rest[..n])
        case None => None
        case Some(s) => Some((s, rest[n..]))
  }

  lemma ParseStringOf(bs: seq<Byte>, n: int, tail: seq<Byte>, s: string)
    requires ParseVarInt(bs) == Some((n, tail)) && 0 <= n <= |tail|
    requires DecodeUtf8(tail[..n]) == Some(s)
    ensures ParseString(bs) == Some((s, tail[n..]))
  {
  }

  lemma WriteStringSplit(s: string, rest: seq<Byte>)
    ensures WriteString(s) + rest == VarInt(|Utf8(s)|) + (Utf8(s) + rest)
  {
  }

  /** A string whose encoding fits a Java byte array reads back whole,
      leaving what follows it untouched. */
  lemma StringRoundTrip(s: string, rest: seq<Byte>)
    requires |Utf8(s)| < 0x8000_0000
    ensures ParseString(WriteString(s) + rest) == Some((s, rest))
  {
    var bytes := Utf8(s);
    WriteStringSplit(s, rest);
    VarIntRoundTrip(|bytes|, bytes + rest);
    SplitAt(bytes, rest);
    Utf8RoundTrip(s);
    ParseStringOf(WriteString(s) + rest, |bytes|, bytes + rest, s);
  }

  // ---------------------------------------------------------------------------
  // Java's floating-point to integer narrowing.

  /** Truncation of a real toward zero. */
  function Truncate(r: real): int
  {
    if r >= 0.0 then r.Floor else -((-r).Floor)
  }

  /** `(int) f` for a finite float or double: truncation toward zero,
      saturating at the ends of the int range. */
  function DoubleToInt(r: real): (v: Int32)
    ensures -0x8000_0000 < Truncate(r) < 0x7FFF_FFFF ==> v == Truncate(r)
    ensures Truncate(r) >= 0x7FFF_FFFF ==> v == 0x7FFF_FFFF
    ensures Truncate(r) <= -0x8000_0000 ==> v == -0x8000_0000
  {
    var t := Truncate(r);
    if t > 0x7FFF_FFFF then 0x7FFF_FFFF else if t < -0x8000_0000 then -0x8000_0000 else t
  }


  // ---------------------------------------------------------------------------
  // Rich-text components.

  /** A chat component, already in its wire form: the component codec
      (`DataTypeIO.writeComponent`) is outside this model, so a component is
      the bytes it writes. */
  datatype Component = Component(encoded: seq<Byte>)

  function ComponentBytes(c: Component): seq<Byte>
  {
    c.encoded
  }

  /** A component reader, as a client has one. */
  type ComponentReader = seq<Byte> -> Option<(Component, seq<Byte>)>

  /** `read` recognises the wire form of `c` when `rest` follows it. */
  ghost predicate ReadsBefore(read: ComponentReader, c: Component, rest: seq<Byte>)
  {
    read(c.encoded + rest) == Some((c, rest))
  }

  /** `read` recognises the wire form of `c`, whatever follows it. */
  ghost predicate Reads(read: ComponentReader, c: Component)
  {
    forall rest: seq<Byte> :: ReadsBefore(read, c, rest)
  }

  // ---------------------------------------------------------------------------
  // The packet id.

  /** Every serialiser writes the packet id with `writeByte`, one byte holding
      the low 8 bits of the registry id.  The protocol frames the id as a
      VarInt; the two agree exactly on ids below 128. */
  lemma PacketIdByteIsVarIntBelow128(id: int)
    requires 0 <= id < 128
    ensures WriteByte(id) == VarInt(id)
  {
    ModUnique(id, TWO_32, 0, id);
    ModUnique(id, 256, 0, id);
  }

  /** From 128 on the single byte is not the VarInt: the id 128 is written as
      0x80, which a VarInt reader takes for an unterminated group. */
  lemma PacketIdByteDiffersAt128()
    ensures WriteByte(128) == [0x80]
    ensures VarInt(128) == [0x80, 0x01]
    ensures ParseVarInt(WriteByte(128)) == None
  {
  }

}

=== FILE: wrappers.dfy ===
/** The optional value used wherever the source has a nullable reference,
    an `Optional`, or a decoder that can fail. */
module Wrappers {

  datatype Option<+T> = None | Some(value: T) {

    predicate IsFailure() {
      None?
    }

    function PropagateFailure<U>(): Option<U>
      requires None?
    {
      None
    }

    function Extract(): T
      requires Some?
    {
      value
    }
  }

}
